=== FILE: README.md ===
# gobs broker core in Dafny

gobs is a session/authentication broker ("biller") for a network of game
zones. Zone processes connect over TCP, announce themselves with CONNECT, and
ask the broker to register and log in players (PLOGIN) and to record arena
presence (PENTERARENA). The broker owns the account table, the set of known
zones with each zone's `pid → billerId` map, and the logged-in players keyed
by billerId.

This project models the broker logic as pure functions over immutable values:

- `strings.dfy`, `strconv.dfy`: the Go library behaviour the protocol code
  relies on — `strings.Split`/`Join` on one character, `strconv.Atoi`
  (optional sign, one or more ASCII digits, 64-bit `int` range), the
  `uint(...)` conversion (wrap modulo 2^64) and `%d`.
- `c2s.dfy`: the `Version`, `Connect` and `Plogin` records, `parseVersion`,
  `ParseConnect`, `ParsePlogin`, plus the line a zone writes for each record
  (used only to state round trips).
- `s2c.dfy`: the protocol constants, the CONNECTOK/CONNECTBAD/POK/PBAD replies
  and their `String()` forms, and the PING frame.
- `zones.dfy`: a zone registry entry and `NewZone`, `ToBillerId`,
  `AddPlayer`, `RemovePlayer`.
- `accounts.dfy`: the SQLite `player` table as a map
  `name → (password, billerId)` with the UNIQUE name column and the
  AUTOINCREMENT counter.
- `biller.dfy`: the Biller state and `CreateZone`, `Login`, `LoggedIn`,
  `EnterArena`, `LeaveArena`, `PidToBillerId`, `PidToName`, `UserExists`,
  `CreateUser`; `biller_properties.dfy` relates them (session life cycle,
  agreement between sessions and zone bindings).
- `handlers.dfy`: `Client.handlePlogin`.
- `client.dfy`: `Client.handleMessage` as a step `(biller, line) → (biller', frames)`.
- `connection.dfy`: `Connection.handleMessage` as a step
  `(biller, zone, line) → (biller', zone', messages, disconnected)` and the
  connection loop as a fold over lines.

Sending is appending to an output sequence. Database faults are explicit
parameters: `storeFault` says a lookup query failed, an `InsertFault` says how
the INSERT of `CreateUser` went (including "no error, but no row affected").

## Behaviour modelled as written

- The guard at protocol/connection.go:76 refuses non-CONNECT lines when the
  connection IS bound to a zone, the opposite of its comment. So an unbound
  connection passes PLOGIN and PENTERARENA to their handlers with the empty
  zone name, and a bound connection refuses every line and closes
  (`Connection.ConnectedRejectsPlogin`). The comment above it at
  protocol/connection.go:75 ("Check if client tries to do something without
  connecting first") states the reverse intent; the model follows the
  condition as written.
- An empty zone name is answered "Invalid zonename" and the connection is
  closed, but handling carries on: the zone "" is created and `Zone` is set
  to "", which leaves the connection unbound, and CONNECTOK is sent after the
  refusal (`Connection.ConnectBinds`). A later CONNECT is therefore accepted
  again, and PLOGIN and PENTERARENA still reach their handlers
  (`Connection.EmptyZoneStaysUnbound`).
- The only POK the program sends carries the first-used time
  "1-2-1999 6:13:35", whose two ':' split it across three fields, so the
  reply arrives as ten fields instead of the eight of its layout
  (`Handlers.WelcomeTenFields`).
- `Login` ignores the result of `AddPlayer`: logging in at a pid another
  session holds succeeds, the pid keeps resolving to the other account, and
  sessions and bindings stop agreeing (`BillingProperties.LoginPidCollision`).
- `CreateUser` returns Go's `nil` when the INSERT affected no row without an
  error, so the zone is told "created" although no account exists
  (`Handlers.RegisterReplyWithoutAccount`).
- `Client.handlePlogin` never logs a player in and never checks the password
  of a plain request (`Handlers.PasswordIgnored`): through the client
  revision a zone can register a name and get POK for it any number of
  times, while no session is ever opened (`Client.RegisterExchange`).
- `LeaveArena` ends in `return true` inside a function without results
  (biller/biller.go:147); it is modelled as returning nothing.
- A negative pid or macid is accepted by `strconv.Atoi` and wraps through
  `uint` to 2^64 − n (`C2S.ParsePloginNegativePid`); a POK echoing such a pid
  writes the wrapped unsigned value (`S2C.RenderPokFields`).
- The connection loop never checks whether a handler closed the socket: it
  keeps dispatching whatever its reader still delivers (`Connection.Run`).

## Model

| member | source | states |
|---|---|---|
| Strings.Split | protocol/connection.go:70 | An inbound line splits into at least one field, and no field holds the separator. |
| Strings.SplitJoin | protocol/s2c.go:134-136 | Joining fields with ':' and splitting again yields the same fields when none holds ':'. |
| Strings.JoinSplit | protocol/connection.go:70 | Joining the fields of a split line gives back the line. |
| Strconv.Atoi | protocol/c2s.go:44-57 | Succeeds iff the text after an optional sign is one or more digits whose signed value lies in 64-bit `int` range, and the result is that signed value; empty text, a bare sign, any other character, or a value outside the range is an error. |
| Strconv.AtoiRejectsNonDigit | protocol/c2s.go:44-57 | Any character that is neither a digit nor a sign in first position makes the conversion fail. |
| Strconv.AtoiOverflow | protocol/c2s.go:44-57 | 2^63 and −(2^63 + 1) are rejected as out of range. |
| Strconv.Uint | protocol/c2s.go:59-61 | The `uint` conversion yields a value below 2^64, keeps non-negative values and adds 2^64 to negative ones. |
| Strconv.FormatUint | protocol/s2c.go:134-136 | `%d` writes at least one digit, all digits, with no leading zero. |
| Strconv.AtoiFormatUint | protocol/c2s.go:99-103 | Every rendered value up to 2^63 − 1 parses back to itself. |
| Strconv.AtoiNegative | protocol/c2s.go:99-103 | "-n" parses to −n down to −2^63, and `uint` turns it into 2^64 − n. |
| C2S.ParseVersion | protocol/c2s.go:41-64 | Succeeds iff all three parts are integers; otherwise the first of major, minor, patch that is not names the error; on success each part is the `uint` of its parsed value. |
| C2S.ParseConnect | protocol/c2s.go:66-90 | Fails unless there are exactly 6 fields and the version splits on '.' into 3 parts; then it succeeds iff the version parses, passing on the version parser's error otherwise; on success the version is the parsed one and swname, zonename, hostname, password are fields 2–5 verbatim. |
| C2S.ParsePlogin | protocol/c2s.go:92-124 | Succeeds iff there are 8 fields and pid and macid are integers (errors in that order); the flag is set iff field 2 is exactly "1"; name, pw, ip, contid are fields 3, 4, 5, 7 verbatim; pid and macid are the `uint` of the parsed values. |
| C2S.ParseVersionRoundTrip | protocol/c2s.go:41-64 | Every version with parts up to 2^63 − 1 written as "a.b.c" parses back to itself. |
| C2S.ParseConnectRoundTrip | protocol/c2s.go:66-90 | A CONNECT line written by a zone, with ':'-free text fields, parses back to exactly its record. |
| C2S.ParsePloginRoundTrip | protocol/c2s.go:92-124 | A PLOGIN line written by a zone, flag as "1"/"0", parses back to exactly its record. |
| C2S.ParsePloginNegativePid | protocol/c2s.go:99-103 | A pid of "-n", for 0 < n ≤ 2^63, is accepted and becomes 2^64 − n. |
| S2C.Render | protocol/s2c.go:112-151 | A reply whose text fields hold no newline is written without one, so it stays a single line. |
| S2C.RenderTag | protocol/s2c.go:112-151 | The first ':'-field of a rendered reply is its tag (CONNECTOK, CONNECTBAD, POK, PBAD), and it identifies the reply kind, whatever the other fields hold. |
| S2C.Bytes | protocol/s2c.go:28-31 | Every frame written ends in a newline, preceded by the reply's text or by "PING" (s2c.go:106); with newline-free text fields that newline is the only one. |
| S2C.RenderConnectReplies | protocol/s2c.go:112-122 | CONNECTOK is exactly "CONNECTOK:Gobs 0.0:" and CONNECTBAD is "CONNECTBAD:Gobs 0.0::" followed by the reason. |
| S2C.RenderConnectBadFields | protocol/s2c.go:120-122 | A CONNECTBAD line splits into tag, server name, network, reason. |
| S2C.RenderPokFields | protocol/s2c.go:134-136 | A POK line with ':'-free text fields splits into exactly 8 fields in the order tag, pid, text, name, squad, billerId, usage, first-used, for any pid including a wrapped one; the numbers read back while they fit an `int`. |
| S2C.RenderPbadFields | protocol/s2c.go:144-151 | A PBAD line carries the pid, then "1" iff the new-name flag is set and "0" iff not, then the reason, for any pid; the pid reads back while it fits an `int`. |
| Zones.NewZone | zone/zone.go:14-18 | A new entry carries the given name and no bindings. |
| Zones.ToBillerId | zone/zone.go:20-26 | Finds a billerId iff the pid is bound, and it is the bound one. |
| Zones.AddPlayer | zone/zone.go:28-39 | Reports success iff the pid was free; a bound pid leaves the entry unchanged; a free pid then resolves to the billerId; other pids are unaffected. |
| Zones.RemovePlayer | zone/zone.go:41-46 | The pid no longer resolves; other pids are unaffected; removing an unbound pid changes nothing. |
| Zones.RemovePlayerIdempotent | zone/zone.go:41-46 | Removing twice equals removing once. |
| Zones.AddThenRemove | zone/zone.go:28-46 | Adding a free pid and removing it restores the entry. |
| Zones.AddRemoveCommute | zone/zone.go:28-46 | Adding one pid and removing another commute. |
| Accounts.Empty | biller/biller.go:252-268 | The table created on first run has no rows and is well formed. |
| Accounts.Insert | biller/biller.go:259-261 | The INSERT fails iff the name exists (UNIQUE column) and then changes nothing; otherwise it adds exactly that name with the password and a billerId no other row has, keeping every row. |
| Billing.Init | biller/biller.go:31-32 | A biller starts with no zones and no players, which satisfies both invariants. |
| Billing.PidToBillerId | biller/biller.go:54-66 | Finds a billerId iff the zone exists and binds the pid, and returns that binding. |
| Billing.PidToName | biller/biller.go:68-90 | Finds a name iff the zone exists, binds the pid, and the bound billerId is logged in; the name is that player's. |
| Billing.LoggedIn | biller/biller.go:189-203 | A logged-in billerId, in a valid state, has a session belonging to the registered account with that billerId. |
| Billing.UserExists | biller/biller.go:205-217 | Says yes only for a registered name; a failing query reads as no. |
| Billing.CreateZone | biller/biller.go:92-109 | Adds the name to the zones, with an empty entry if it was new; existing entries, players and accounts are untouched. |
| Billing.CreateZoneKeepsValid | biller/biller.go:92-109 | Registering a zone keeps the Biller's invariant: account ids, zone names matching their keys, and sessions pointing at registered accounts. |
| Billing.EnterArena | biller/biller.go:111-122 | A logged-in player is marked inside and nothing else changes; an unknown billerId changes nothing. |
| Billing.LeaveArena | biller/biller.go:124-148 | A known player with a known zone loses its session and its pid binding, other bindings and zones untouched; unknown player or zone changes nothing; afterwards the player is not logged in. |
| Billing.Login | biller/biller.go:150-187 | Checks in order unknown zone, query fault, unregistered name (the only case whose second result is true), already logged in (whatever the password), wrong password; every failure changes nothing; success opens exactly the session {name, zone, billerId, pid, not inside} and applies `AddPlayer` to that zone only. |
| Billing.CreateUser | biller/biller.go:219-241 | A duplicate name is a constraint error that changes nothing; success is reported iff the name was new and the INSERT either worked or affected no row without an error; the name is added iff it was new and the INSERT ran; sessions and zones are untouched. |
| BillingProperties.CreateZoneIdempotent | biller/biller.go:96-100 | Creating a zone twice equals creating it once; an existing zone is a no-op. |
| BillingProperties.SessionFindsName | biller/biller.go:54-90 | While sessions and bindings agree, a logged-in player's recorded (zone, pid) resolves to its billerId and name, and every bound (zone, pid) resolves to a logged-in player's name. |
| BillingProperties.LeaveArenaIdempotent | biller/biller.go:127-131 | Leaving twice equals leaving once. |
| BillingProperties.CoherentUniquePlacement | biller/biller.go:182-184 | While sessions and bindings agree, a billerId is bound at one (zone, pid) at most. |
| BillingProperties.CreateZonePreservesCoherent | biller/biller.go:92-109 | Creating a zone keeps sessions and bindings in agreement. |
| BillingProperties.EnterArenaPreservesCoherent | biller/biller.go:111-122 | Entering an arena keeps sessions and bindings in agreement. |
| BillingProperties.CreateUserPreservesCoherent | biller/biller.go:219-241 | Creating an account keeps sessions and bindings in agreement. |
| BillingProperties.LoginPreservesCoherent | biller/biller.go:182-184 | A login at a free pid keeps sessions and bindings in agreement. |
| BillingProperties.LoginPidCollision | biller/biller.go:184 | A login at a pid another session holds succeeds, yet the pid still resolves to the other account and agreement is lost. |
| BillingProperties.LeaveArenaPreservesCoherent | biller/biller.go:136-145 | Ending a session keeps sessions and bindings in agreement. |
| BillingProperties.SecondLoginRejected | biller/biller.go:174-176 | After a successful login, another login for the same name at any registered zone is refused as already logged in, whatever password or pid, and changes nothing; at an unregistered zone the zone check answers first. |
| BillingProperties.LoginLeaveLogin | biller/biller.go:124-187 | Log in, leave: the player is not logged in, the pid resolves to nothing, and the same credentials log in again. |
| BillingProperties.WrongPasswordNoSession | biller/biller.go:178-180 | A wrong password never opens a session and changes nothing. |
| BillingProperties.RegisterThenLogin | biller/biller.go:150-241 | A fresh name inserted without fault logs in, and a second login for it is refused. |
| Handlers.HandlePlogin | protocol/handlers.go:7-38 | Exactly one reply carrying the request's pid; register with an existing name gives PBAD "Can't create user. User already exists" without creating; a failed creation gives PBAD "Could not create user"; a creation gives POK with the pid and name; a plain request for an unknown name gives PBAD "User does not exist" with the new-name flag, otherwise POK; no session is opened. |
| Handlers.Welcome | protocol/handlers.go:24-36 | The success reply is a POK echoing the request's pid and name. |
| Handlers.WelcomeTenFields | protocol/handlers.go:24-36 | The success POK, for a ':'-free name, splits on the wire into ten fields, its first-used time broken into "1-2-1999 6", "13" and "35". |
| Handlers.PasswordIgnored | protocol/handlers.go:29-37 | For a plain request, the password changes neither the reply kind nor the state. |
| Handlers.RegisterReplyMeaning | protocol/handlers.go:15-26 | A POK to a register request means the name was new and either the account now exists with that password or the INSERT silently affected no row. |
| Handlers.RegisterReplyWithoutAccount | biller/biller.go:235-238 | An INSERT affecting no row without an error yields POK while the account is still missing. |
| Client.HandleMessage | protocol/s2c.go:73-107 | A malformed CONNECT or PLOGIN produces no frame at all; every other line ends in exactly one PING after at most one reply; a parsed CONNECT gets "Protocol mismatch" iff major ≠ 1 or minor ≠ 3; a parsed PLOGIN gets the handler's reply; any other tag gets only PING; sessions and zones are untouched. |
| Client.ConnectAnswer | protocol/s2c.go:86-90 | A zone's CONNECT line is answered CONNECTOK iff its version is 1.3.x, whatever the patch, and "Protocol mismatch" otherwise. |
| Client.RegisterExchange | protocol/handlers.go:7-38 | For a fresh name: a plain PLOGIN gets PBAD with the new-name flag; a register PLOGIN creates the account and gets POK; a repeated plain PLOGIN gets POK and no session exists. |
| Connection.HandleMessage | protocol/connection.go:69-132 | A bound connection refuses every non-CONNECT line with "Not yet connected"; a malformed CONNECT gets "Wrong connection message", a CONNECT on a bound connection "Already connected", a version other than 1.3.x "Protocol mismatch": each refusal closes and leaves biller and binding untouched; an accepted CONNECT on an unbound connection creates that zone, sets the bound zone to its name and sends CONNECTOK (after "Invalid zonename" when the name is empty, which leaves the connection unbound); a well-formed PLOGIN or PENTERARENA reaches its handler with the zone "" and only the handler's replies are sent; malformed PLOGIN/PENTERARENA and unknown tags do nothing. |
| Connection.BoundStepRefuses | protocol/connection.go:75-97 | On a bound connection every line, CONNECT included, gets exactly one CONNECTBAD and a close, with biller and binding untouched. |
| Connection.CloseFollowsRefusal | protocol/connection.go:75-114 | A step closes the connection iff the connection is bound, the line is a CONNECT that is not accepted, or an accepted CONNECT names the empty zone; every close comes after a CONNECTBAD as the first reply. |
| Connection.BindingChanges | protocol/connection.go:99-114 | The bound zone changes only through an accepted CONNECT on an unbound connection, to its zone name, with CONNECTOK as the last reply; a bound zone stays registered with the biller. |
| Connection.Run | protocol/connection.go:29-49 | Over every chunk delivered, the bound zone stays registered; on a bound connection each delivered chunk is refused with a CONNECTBAD and biller and binding never change; a closed run sent a CONNECTBAD. |
| Connection.ConnectBinds | protocol/connection.go:99-114 | A well-formed 1.3.x CONNECT on an unbound connection creates the zone and sets the bound zone to its name; CONNECTOK alone for a named zone; "Invalid zonename" then CONNECTOK and a close for the empty name, whose bound zone "" leaves the connection unbound. |
| Connection.EmptyZoneStaysUnbound | protocol/connection.go:76-114 | After a CONNECT with the empty zone name the connection is still unbound, so a second well-formed 1.3.x CONNECT is accepted with CONNECTOK alone, not refused as "Already connected". |
| Connection.ConnectMismatch | protocol/connection.go:99-101 | Any other version gets "Protocol mismatch" and a close, with biller and binding untouched. |
| Connection.ConnectedRejectsPlogin | protocol/connection.go:75-81 | After an accepted CONNECT naming a non-empty zone, the next PLOGIN is answered "Not yet connected" and the connection is closed; every later chunk is refused too. |
| Connection.BoundRunStops | protocol/connection.go:75-81 | On a bound connection a first non-CONNECT line is answered "Not yet connected" and the run ends closed, with one refusal per chunk and biller and binding untouched. |
| Connection.UnboundPloginUsesEmptyZone | protocol/connection.go:115-122 | While unbound, a well-formed PLOGIN reaches the PLOGIN handler with the empty zone name and no reply of its own. |

## Left out

- main.go (listener on port 1850, interrupt handling, shutdown wait, the unused `connectMsgHandler`/`ploginHandler`): process plumbing.
- `Client.Listen`/`listen` and the reading goroutine `Connection.listen`: goroutines, channels and socket reads, and the `Quit` channel that ends a loop; `Connection.Listen`'s loop itself is `Connection.Run`. The readers forward the whole 1023-byte buffer (`string(buf)`, not `buf[:n]`), reusing one buffer for every read: past the `n` bytes just read lie zeros after the first read, and afterwards whatever was left by a longer earlier chunk. When that stale tail holds ':', it adds fields: a PLOGIN read after a longer one then has more than 8 fields, fails with "Not enough fields" and is silently dropped; a tail without ':' only lengthens the last field (for PLOGIN, the contid). The model covers this only in that `HandleMessage` accepts any buffer, stale tail included; which tail a chunk carries is not modelled.
- All `sync.RWMutex` locking: each biller or zone operation is one atomic step, as the model is sequential.
- `NewBiller`, `createDatabase`, `fileExists` and the SQL text: the table is the abstract `Accounts.Store`; database faults are parameters.
- `log.Printf` and the `Conn.Write` error results: sends are appended to the output whether or not the write succeeds, including the CONNECTOK written after the connection was closed for an empty zone name.
- `Connection.handlePlogin`, `ParsePenterArena` and `handlePenterArena` are not part of this model: they enter `Connection.HandleMessage` as callbacks.
- Connection.Run: `lines` stands for the chunks the reader delivered before closing its channel; how many arrive after a handler closes the socket (the reader may already hold one) depends on timing, so the caller chooses them.
- Connection.HandleMessage: takes the callbacks neither to close the connection nor to change the bound zone (`Zone`), since their code is not available; `Connection.BindingChanges` and `Connection.Run` rest on this. The callbacks are also deterministic, so a store fault that could answer the same line differently on another occasion is not modelled per call.
- Billing.Login: when the lookup query fails, the model reports the store error whatever the name; Go's two failure cases are disjoint and which one the driver returns is decided by the `storeFault` parameter.
- The `len(fields) == 0` guards in both dispatchers are dead: `Strings.Split` never returns an empty list.
- PLEAVE handling, session clean-up on disconnect and password hashing: the code does not implement them.
- The `(0, false)` and `("", false)` results of the lookups are modelled as `None`.

=== FILE: accounts.dfy ===
/**
 * The account table, as the biller's SQL statements see it: rows keyed by a
 * UNIQUE name, each holding the plaintext password and an AUTOINCREMENT
 * billerId. Faults of the database are not modelled here; the biller takes
 * them as explicit outcome parameters.
 */
module Accounts {

  datatype Account = Account(password: string, billerId: nat)

  /** The table and the next AUTOINCREMENT value (SQLite starts at 1 and never reuses one). */
  datatype Store = Store(accounts: map<string, Account>, nextId: nat)

  /** Every billerId was issued by the counter, and no two names share one. */
  predicate Valid(s: Store)
  {
    && 1 <= s.nextId
    && (forall n :: n in s.accounts ==> 1 <= s.accounts[n].billerId < s.nextId)
    && (forall n1, n2 :: n1 in s.accounts && n2 in s.accounts && n1 != n2 ==>
          s.accounts[n1].billerId != s.accounts[n2].billerId)
  }

  /** The table as created on first run: no rows, counter at 1. */
  function Empty(): (s: Store)
    ensures Valid(s) && |s.accounts| == 0
  {
    Store(map[], 1)
  }

  /** Every existing row is still there, unchanged. */
  predicate Extends(s: Store, s': Store)
  {
    forall n :: n in s.accounts ==> n in s'.accounts && s'.accounts[n] == s.accounts[n]
  }

  /** `INSERT INTO player (name, password)`: fails on a duplicate name (the
      UNIQUE column), otherwise adds a row with the next billerId. */
  function Insert(s: Store, name: string, password: string): (r: (Store, bool))
    ensures Valid(s) ==> Valid(r.0)
    ensures Extends(s, r.0)
    ensures r.1 <==> name !in s.accounts
    ensures !r.1 ==> r.0 == s
    ensures r.1 ==> r.0.accounts.Keys == s.accounts.Keys + {name}
                    && r.0.accounts[name].password == password
    ensures Valid(s) && r.1 ==> forall n :: n in s.accounts ==> s.accounts[n].billerId != r.0.accounts[name].billerId
  {
    if name in s.accounts then (s, false)
    else (Store(s.accounts[name := Account(password, s.nextId)], s.nextId + 1), true)
  }
}

=== FILE: biller.dfy ===
/**
 * The biller: the broker's single authority over zones, logged-in players
 * and the account table. Every operation is one atomic step from a state to
 * a state (the Go code serialises them with its two locks). Faults of the
 * database are explicit parameters: `storeFault` says the lookup query
 * failed, an `InsertFault` says how the INSERT statement went.
 */
module Billing {
  import opened Results
  import opened Zones
  import Accounts

  /** A logged-in player: its account, where it was reported, and whether it entered an arena. */
  datatype Player = Player(name: string, zone: string, billerId: nat, pid: nat, inside: bool)

  datatype Biller = Biller(zones: map<string, Zone>, players: map<nat, Player>, store: Accounts.Store)

  /** Why a login was refused. */
  datatype LoginError =
    | ZoneNotFound
    | NotRegistered(name: string)
    | StoreFailure
    | AlreadyLoggedIn(name: string)
    | WrongPassword(name: string)

  /** The new state, the error (None for Go's nil) and Go's second result,
      which is true only for an unregistered name. */
  datatype LoginResult = LoginResult(biller: Biller, err: Option<LoginError>, notRegistered: bool)

  /** How the INSERT of CreateUser went, as far as the database is concerned. */
  datatype InsertFault =
    | NoFault
    | PrepareFails
    | ExecFails
    | RowsAffectedFails
    | NoRowAffected   // the statement ran, reported no error, but affected no row

  /** The errors CreateUser passes on. */
  datatype DbError = PrepareFailed | ConstraintViolated | ExecFailed | RowsAffectedFailed

  // ---------------------------------------------------------------------
  // State invariants
  // ---------------------------------------------------------------------

  /** A session is filed under its own billerId, names a registered zone and
      belongs to the account of that name. */
  predicate SessionValid(b: Biller, id: nat)
    requires id in b.players
  {
    var p := b.players[id];
    && p.billerId == id
    && p.zone in b.zones
    && p.name in b.store.accounts
    && b.store.accounts[p.name].billerId == id
  }

  /** The invariant every operation preserves. */
  predicate Valid(b: Biller)
  {
    && Accounts.Valid(b.store)
    && (forall z :: z in b.zones ==> b.zones[z].name == z)
    && (forall id :: id in b.players ==> SessionValid(b, id))
  }

  /** The player's (zone, pid) binding resolves to its billerId. */
  predicate Placed(b: Biller, id: nat)
    requires Valid(b) && id in b.players
  {
    var p := b.players[id];
    p.pid in b.zones[p.zone].pidToBillerId && b.zones[p.zone].pidToBillerId[p.pid] == id
  }

  /** The binding of `pid` in zone `z` belongs to a logged-in player reported at exactly that place. */
  predicate Occupies(b: Biller, z: string, pid: nat)
    requires z in b.zones && pid in b.zones[z].pidToBillerId
  {
    var id := b.zones[z].pidToBillerId[pid];
    id in b.players && b.players[id].zone == z && b.players[id].pid == pid
  }

  /** Sessions and zone bindings agree in both directions. */
  predicate Coherent(b: Biller)
    requires Valid(b)
  {
    && (forall id :: id in b.players ==> Placed(b, id))
    && (forall z, pid :: z in b.zones && pid in b.zones[z].pidToBillerId ==> Occupies(b, z, pid))
  }

  /** Go's `loggedIn`/`LoggedIn`: a session exists for the billerId. */
  predicate LoggedIn(b: Biller, billerId: nat): (r: bool)
    ensures Valid(b) && r ==>
              && billerId in b.players
              && var p := b.players[billerId];
                 p.name in b.store.accounts && b.store.accounts[p.name].billerId == billerId
  {
    billerId in b.players
  }

  /** The state right after start-up: no zones, no sessions. */
  function Init(store: Accounts.Store): (b: Biller)
    ensures Accounts.Valid(store) ==> Valid(b) && Coherent(b)
  {
    Biller(map[], map[], store)
  }

  // ---------------------------------------------------------------------
  // Queries
  // ---------------------------------------------------------------------

  /** The billerId bound to `pid` in the named zone. */
  function PidToBillerId(b: Biller, zoneName: string, pid: nat): (r: Option<nat>)
    ensures r.Some? <==> zoneName in b.zones && pid in b.zones[zoneName].pidToBillerId
    ensures r.Some? ==> r.value == b.zones[zoneName].pidToBillerId[pid]
  {
    if zoneName !in b.zones then None
    else ToBillerId(b.zones[zoneName], pid)
  }

  /** The account name of the player bound to `pid` in the named zone. */
  function PidToName(b: Biller, zoneName: string, pid: nat): (r: Option<string>)
    ensures r.Some? <==> zoneName in b.zones && pid in b.zones[zoneName].pidToBillerId
                         && b.zones[zoneName].pidToBillerId[pid] in b.players
    ensures r.Some? ==> r.value == b.players[b.zones[zoneName].pidToBillerId[pid]].name
  {
    if zoneName !in b.zones then None
    else
      match ToBillerId(b.zones[zoneName], pid)
      case None => None
      case Some(id) => if id in b.players then Some(b.players[id].name) else None
  }

  /** Whether an account of that name exists; a failing query reads as "no". */
  function UserExists(b: Biller, name: string, storeFault: bool): (r: bool)
    ensures r ==> name in b.store.accounts
    ensures !storeFault ==> (r <==> name in b.store.accounts)
    ensures storeFault ==> !r
  {
    if storeFault then false else name in b.store.accounts
  }

  // ---------------------------------------------------------------------
  // Transitions
  // ---------------------------------------------------------------------

  /** Registers a zone unless one of that name exists. */
  function CreateZone(b: Biller, name: string): (r: Biller)
    ensures r.players == b.players && r.store == b.store
    ensures forall z :: z in r.zones <==> z in b.zones || z == name
    ensures forall z :: z in b.zones ==> r.zones[z] == b.zones[z]
    ensures name !in b.zones ==> r.zones[name] == NewZone(name)
  {
    if name in b.zones then b
    else b.(zones := b.zones[name := NewZone(name)])
  }

  /** Registering a zone keeps the invariant. */
  lemma CreateZoneKeepsValid(b: Biller, name: string)
    requires Valid(b)
    ensures Valid(CreateZone(b, name))
  {
    var r := CreateZone(b, name);
    forall id | id in r.players
      ensures SessionValid(r, id)
    {
      assert SessionValid(b, id);
    }
  }

  /** Marks a logged-in player as inside an arena; unknown billerIds are ignored. */
  function EnterArena(b: Biller, billerId: nat): (r: Biller)
    ensures billerId !in b.players ==> r == b
    ensures r.zones == b.zones && r.store == b.store && r.players.Keys == b.players.Keys
    ensures billerId in b.players ==> r.players[billerId].inside
    ensures forall id :: id in b.players ==>
              r.players[id] == if id == billerId then b.players[id].(inside := true) else b.players[id]
    ensures Valid(b) ==> Valid(r)
  {
    if billerId !in b.players then b
    else b.(players := b.players[billerId := b.players[billerId].(inside := true)])
  }

  /** Ends a player's session: unbinds its pid in its zone and forgets the
      player. Unknown players, and players whose zone is unknown, are ignored. */
  function LeaveArena(b: Biller, billerId: nat): (r: Biller)
    ensures billerId !in b.players || b.players[billerId].zone !in b.zones ==> r == b
    ensures r.store == b.store && r.zones.Keys == b.zones.Keys
    ensures Valid(b) ==> !LoggedIn(r, billerId)
    ensures billerId in b.players && b.players[billerId].zone in b.zones ==>
              var p := b.players[billerId];
              && r.players == b.players - {billerId}
              && PidToBillerId(r, p.zone, p.pid) == None
              && (forall q :: q != p.pid ==> PidToBillerId(r, p.zone, q) == PidToBillerId(b, p.zone, q))
              && (forall z :: z in b.zones && z != p.zone ==> r.zones[z] == b.zones[z])
    ensures Valid(b) ==> Valid(r)
  {
    if billerId !in b.players then b
    else
      var p := b.players[billerId];
      if p.zone !in b.zones then b
      else Biller(b.zones[p.zone := RemovePlayer(b.zones[p.zone], p.pid)],
                  b.players - {billerId}, b.store)
  }

  /** Logs a player in. Checks, in order: the zone is known, the lookup
      query works, the name is registered, the account is not logged in, the
      password matches. Only success changes the state: it opens the session
      and binds the pid in the zone, ignoring whether that binding took. */
  function Login(b: Biller, name: string, password: string, zoneName: string, pid: nat,
                 storeFault: bool): (r: LoginResult)
    ensures r.err.Some? ==> r.biller == b
    ensures zoneName !in b.zones ==> r.err == Some(ZoneNotFound)
    ensures zoneName in b.zones && storeFault ==> r.err == Some(StoreFailure)
    ensures r.notRegistered <==> zoneName in b.zones && !storeFault && name !in b.store.accounts
    ensures r.notRegistered ==> r.err == Some(NotRegistered(name))
    ensures (zoneName in b.zones && !storeFault && name in b.store.accounts
             && LoggedIn(b, b.store.accounts[name].billerId)) ==> r.err == Some(AlreadyLoggedIn(name))
    ensures (zoneName in b.zones && !storeFault && name in b.store.accounts
             && !LoggedIn(b, b.store.accounts[name].billerId)
             && b.store.accounts[name].password != password) ==> r.err == Some(WrongPassword(name))
    ensures r.err.None? <==> zoneName in b.zones && !storeFault && name in b.store.accounts
                             && !LoggedIn(b, b.store.accounts[name].billerId)
                             && b.store.accounts[name].password == password
    ensures r.err.None? ==> r.biller.store == b.store
    ensures r.err.None? ==>
              (&& name in b.store.accounts && zoneName in b.zones
               && var id := b.store.accounts[name].billerId;
               && LoggedIn(r.biller, id)
               && r.biller.players == b.players[id := Player(name, zoneName, id, pid, false)]
               && r.biller.zones.Keys == b.zones.Keys
               && r.biller.zones[zoneName] == AddPlayer(b.zones[zoneName], pid, id).0
               && (forall z :: z in b.zones && z != zoneName ==> r.biller.zones[z] == b.zones[z]))
    ensures Valid(b) ==> Valid(r.biller)
  {
    if zoneName !in b.zones then LoginResult(b, Some(ZoneNotFound), false)
    else if storeFault then LoginResult(b, Some(StoreFailure), false)
    else if name !in b.store.accounts then LoginResult(b, Some(NotRegistered(name)), true)
    else
      var account := b.store.accounts[name];
      if LoggedIn(b, account.billerId) then LoginResult(b, Some(AlreadyLoggedIn(name)), false)
      else if account.password != password then LoginResult(b, Some(WrongPassword(name)), false)
      else
        var player := Player(name, zoneName, account.billerId, pid, false);
        var (zone', _) := AddPlayer(b.zones[zoneName], pid, account.billerId);
        LoginResult(Biller(b.zones[zoneName := zone'], b.players[account.billerId := player], b.store),
                    None, false)
  }

  /** Inserts a new account. The UNIQUE name column turns a duplicate into an
      error. When the statement affected no row yet reported no error, the
      error returned is Go's nil, so the caller sees success. */
  function CreateUser(b: Biller, name: string, password: string, fault: InsertFault): (r: (Biller, Option<DbError>))
    ensures r.0.zones == b.zones && r.0.players == b.players
    ensures Accounts.Extends(b.store, r.0.store)
    ensures name in b.store.accounts ==> r.0 == b && r.1.Some?
    ensures fault != PrepareFails && name in b.store.accounts ==> r.1 == Some(ConstraintViolated)
    ensures r.1.None? <==> name !in b.store.accounts && (fault == NoFault || fault == NoRowAffected)
    ensures name in r.0.store.accounts && name !in b.store.accounts <==>
              name !in b.store.accounts && (fault == NoFault || fault == RowsAffectedFails)
    ensures r.0.store.accounts.Keys <= b.store.accounts.Keys + {name}
    ensures name in r.0.store.accounts && name !in b.store.accounts ==>
              r.0.store.accounts[name].password == password
    ensures Valid(b) ==> Valid(r.0)
  {
    if fault == PrepareFails then (b, Some(PrepareFailed))
    else if name in b.store.accounts then (b, Some(ConstraintViolated))
    else if fault == ExecFails then (b, Some(ExecFailed))
    else if fault == NoRowAffected then (b, None)
    else
      var (store', _) := Accounts.Insert(b.store, name, password);
      (b.(store := store'), if fault == RowsAffectedFails then Some(RowsAffectedFailed) else None)
  }
}

=== FILE: biller_properties.dfy ===
/**
 * Properties of the biller that relate several operations: the session
 * life cycle, and when sessions and zone bindings stay in agreement.
 */
module BillingProperties {
  import opened Results
  import opened Zones
  import opened Billing

  /** Registering a zone twice is registering it once. */
  lemma CreateZoneIdempotent(b: Biller, name: string)
    ensures CreateZone(CreateZone(b, name), name) == CreateZone(b, name)
    ensures name in b.zones ==> CreateZone(b, name) == b
  {
  }

  /** While sessions and bindings agree, a logged-in player is found by the
      (zone, pid) its session records, and whatever a (zone, pid) resolves to
      by name is a logged-in player's. */
  lemma SessionFindsName(b: Biller, billerId: nat, zoneName: string, pid: nat)
    requires Valid(b) && Coherent(b)
    ensures LoggedIn(b, billerId) ==>
              var p := b.players[billerId];
              && PidToBillerId(b, p.zone, p.pid) == Some(billerId)
              && PidToName(b, p.zone, p.pid) == Some(p.name)
    ensures PidToBillerId(b, zoneName, pid).Some? ==>
              && LoggedIn(b, PidToBillerId(b, zoneName, pid).value)
              && PidToName(b, zoneName, pid).Some?
  {
    if LoggedIn(b, billerId) {
      assert Placed(b, billerId);
    }
    if PidToBillerId(b, zoneName, pid).Some? {
      assert Occupies(b, zoneName, pid);
    }
  }

  /** Leaving twice is leaving once. */
  lemma LeaveArenaIdempotent(b: Biller, billerId: nat)
    ensures LeaveArena(LeaveArena(b, billerId), billerId) == LeaveArena(b, billerId)
  {
  }

  /** Under coherence a billerId is bound at one (zone, pid) at most, the
      place its session records. */
  lemma CoherentUniquePlacement(b: Biller, z1: string, p1: nat, z2: string, p2: nat)
    requires Valid(b) && Coherent(b)
    requires z1 in b.zones && p1 in b.zones[z1].pidToBillerId
    requires z2 in b.zones && p2 in b.zones[z2].pidToBillerId
    requires b.zones[z1].pidToBillerId[p1] == b.zones[z2].pidToBillerId[p2]
    ensures z1 == z2 && p1 == p2
  {
    assert Occupies(b, z1, p1);
    assert Occupies(b, z2, p2);
  }

  /** Agreement survives any step that keeps every session's place and every
      existing binding, and adds only empty zones. */
  lemma CoherentFrame(b: Biller, b': Biller)
    requires Valid(b) && Coherent(b) && Valid(b')
    requires b'.players.Keys == b.players.Keys
    requires forall id :: id in b.players ==>
               b'.players[id].zone == b.players[id].zone && b'.players[id].pid == b.players[id].pid
    requires b.zones.Keys <= b'.zones.Keys
    requires forall z :: z in b.zones ==> b'.zones[z].pidToBillerId == b.zones[z].pidToBillerId
    requires forall z :: z in b'.zones && z !in b.zones ==> |b'.zones[z].pidToBillerId| == 0
    ensures Coherent(b')
  {
    forall i | i in b'.players
      ensures Placed(b', i)
    {
      assert Placed(b, i);
    }
    forall z, q | z in b'.zones && q in b'.zones[z].pidToBillerId
      ensures Occupies(b', z, q)
    {
      assert Occupies(b, z, q);
    }
  }

  lemma CreateZonePreservesCoherent(b: Biller, name: string)
    requires Valid(b) && Coherent(b)
    ensures Valid(CreateZone(b, name)) && Coherent(CreateZone(b, name))
  {
    CreateZoneKeepsValid(b, name);
    CoherentFrame(b, CreateZone(b, name));
  }

  lemma EnterArenaPreservesCoherent(b: Biller, billerId: nat)
    requires Valid(b) && Coherent(b)
    ensures Valid(EnterArena(b, billerId)) && Coherent(EnterArena(b, billerId))
  {
    CoherentFrame(b, EnterArena(b, billerId));
  }

  lemma CreateUserPreservesCoherent(b: Biller, name: string, password: string, fault: InsertFault)
    requires Valid(b) && Coherent(b)
    ensures Valid(CreateUser(b, name, password, fault).0) && Coherent(CreateUser(b, name, password, fault).0)
  {
    CoherentFrame(b, CreateUser(b, name, password, fault).0);
  }

  /** A successful login at a free pid keeps sessions and bindings in agreement. */
  lemma LoginPreservesCoherent(b: Biller, name: string, password: string, zoneName: string,
                               pid: nat, storeFault: bool)
    requires Valid(b) && Coherent(b)
    requires PidToBillerId(b, zoneName, pid).None?
    ensures Valid(Login(b, name, password, zoneName, pid, storeFault).biller)
    ensures Coherent(Login(b, name, password, zoneName, pid, storeFault).biller)
  {
    var r := Login(b, name, password, zoneName, pid, storeFault);
    if r.err.None? {
      var id := b.store.accounts[name].billerId;
      BindingAdded(b, r.biller, id, zoneName, pid);
    }
  }

  /** Adding a session for `id` at a free (zone, pid), and exactly that binding, keeps agreement. */
  lemma BindingAdded(b: Biller, b': Biller, id: nat, zoneName: string, pid: nat)
    requires Valid(b) && Coherent(b) && Valid(b')
    requires id !in b.players && zoneName in b.zones && pid !in b.zones[zoneName].pidToBillerId
    requires b'.players.Keys == b.players.Keys + {id}
    requires b'.players[id].zone == zoneName && b'.players[id].pid == pid
    requires forall i :: i in b.players ==> b'.players[i] == b.players[i]
    requires b'.zones.Keys == b.zones.Keys
    requires b'.zones[zoneName].pidToBillerId == b.zones[zoneName].pidToBillerId[pid := id]
    requires forall z :: z in b.zones && z != zoneName ==> b'.zones[z] == b.zones[z]
    ensures Coherent(b')
  {
    forall i | i in b'.players
      ensures Placed(b', i)
    {
      if i != id {
        assert Placed(b, i);
      }
    }
    forall z, q | z in b'.zones && q in b'.zones[z].pidToBillerId
      ensures Occupies(b', z, q)
    {
      if z != zoneName || q != pid {
        assert Occupies(b, z, q);
      }
    }
  }

  /** Login ignores whether the pid binding took. Logging in at a pid that
      another session holds succeeds, yet the pid still resolves to the other
      account: the new session is not placed, and agreement is lost. */
  lemma LoginPidCollision(b: Biller, name: string, password: string, zoneName: string, pid: nat)
    requires Valid(b) && Coherent(b)
    requires PidToBillerId(b, zoneName, pid).Some?
    requires Login(b, name, password, zoneName, pid, false).err.None?
    ensures var b' := Login(b, name, password, zoneName, pid, false).biller;
            var id := b.store.accounts[name].billerId;
            && LoggedIn(b', id)
            && PidToBillerId(b', zoneName, pid) == PidToBillerId(b, zoneName, pid)
            && PidToBillerId(b', zoneName, pid) != Some(id)
            && Valid(b') && !Coherent(b')
  {
    var b' := Login(b, name, password, zoneName, pid, false).biller;
    var id := b.store.accounts[name].billerId;
    var other := b.zones[zoneName].pidToBillerId[pid];
    assert Occupies(b, zoneName, pid);
    assert other != id;
    assert !Placed(b', id);
  }

  /** Ending a session keeps sessions and bindings in agreement. */
  lemma LeaveArenaPreservesCoherent(b: Biller, billerId: nat)
    requires Valid(b) && Coherent(b)
    ensures Valid(LeaveArena(b, billerId)) && Coherent(LeaveArena(b, billerId))
  {
    if billerId in b.players {
      var p := b.players[billerId];
      assert Placed(b, billerId);
      BindingRemoved(b, LeaveArena(b, billerId), billerId, p.zone, p.pid);
    }
  }

  /** Removing the session of `id` together with its own binding keeps agreement. */
  lemma BindingRemoved(b: Biller, b': Biller, id: nat, zoneName: string, pid: nat)
    requires Valid(b) && Coherent(b) && Valid(b')
    requires id in b.players && b.players[id].zone == zoneName && b.players[id].pid == pid
    requires zoneName in b.zones && pid in b.zones[zoneName].pidToBillerId
    requires b.zones[zoneName].pidToBillerId[pid] == id
    requires b'.players == b.players - {id}
    requires b'.zones.Keys == b.zones.Keys
    requires b'.zones[zoneName].pidToBillerId == b.zones[zoneName].pidToBillerId - {pid}
    requires forall z :: z in b.zones && z != zoneName ==> b'.zones[z] == b.zones[z]
    ensures Coherent(b')
  {
    forall i | i in b'.players
      ensures Placed(b', i)
    {
      assert Placed(b, i);
      var q := b.players[i];
      assert i != id;
      assert q.zone != zoneName || q.pid != pid;
      assert b'.players[i] == q;
      if q.zone == zoneName {
        assert q.pid in b'.zones[zoneName].pidToBillerId;
      } else {
        assert b'.zones[q.zone] == b.zones[q.zone];
      }
    }
    forall z, q | z in b'.zones && q in b'.zones[z].pidToBillerId
      ensures Occupies(b', z, q)
    {
      assert Occupies(b, z, q);
      var j := b.zones[z].pidToBillerId[q];
      assert b'.zones[z].pidToBillerId[q] == j;
      assert j != id;
    }
  }

  /** A second login for an account that is logged in is refused at any
      registered zone, whatever the password or the pid, and changes nothing.
      (At an unregistered zone the zone check answers first.) */
  lemma SecondLoginRejected(b: Biller, name: string, password: string, zoneName: string, pid: nat,
                            password2: string, zone2: string, pid2: nat)
    requires Valid(b)
    requires Login(b, name, password, zoneName, pid, false).err.None?
    requires zone2 in b.zones
    ensures var b' := Login(b, name, password, zoneName, pid, false).biller;
            Login(b', name, password2, zone2, pid2, false) == LoginResult(b', Some(AlreadyLoggedIn(name)), false)
  {
  }

  /** The session life cycle: log in, leave, and the same credentials log in again. */
  lemma LoginLeaveLogin(b: Biller, name: string, password: string, zoneName: string, pid: nat)
    requires Valid(b)
    requires Login(b, name, password, zoneName, pid, false).err.None?
    ensures var id := b.store.accounts[name].billerId;
            var b1 := LeaveArena(Login(b, name, password, zoneName, pid, false).biller, id);
            && !LoggedIn(b1, id)
            && PidToBillerId(b1, zoneName, pid) == None
            && Login(b1, name, password, zoneName, pid, false).err.None?
  {
    var id := b.store.accounts[name].billerId;
    var b0 := Login(b, name, password, zoneName, pid, false).biller;
    assert b0.players[id].zone == zoneName && b0.players[id].pid == pid;
  }

  /** A wrong password never opens a session. */
  lemma WrongPasswordNoSession(b: Biller, name: string, password: string, zoneName: string, pid: nat,
                               storeFault: bool)
    requires name in b.store.accounts && b.store.accounts[name].password != password
    ensures Login(b, name, password, zoneName, pid, storeFault).err.Some?
    ensures Login(b, name, password, zoneName, pid, storeFault).biller == b
  {
  }

  /** Registering then logging in succeeds exactly once: a fresh name
      inserted without fault can log in, and a second login for it is refused. */
  lemma RegisterThenLogin(b: Biller, name: string, password: string, zoneName: string, pid: nat)
    requires Valid(b)
    requires name !in b.store.accounts && zoneName in b.zones
    ensures var b1 := CreateUser(b, name, password, NoFault).0;
            var r := Login(b1, name, password, zoneName, pid, false);
            && r.err.None?
            && Login(r.biller, name, password, zoneName, pid, false).err == Some(AlreadyLoggedIn(name))
  {
    var b1 := CreateUser(b, name, password, NoFault).0;
    var id := b1.store.accounts[name].billerId;
    forall i | i in b.players
      ensures i != id
    {
      assert SessionValid(b, i);
    }
    assert !LoggedIn(b1, id);
  }
}

=== FILE: c2s.dfy ===
/**
 * Zone-to-broker messages: the CONNECT and PLOGIN records and their parsers
 * over the ':'-separated fields of one inbound line.
 */
module C2S {
  import opened Results
  import opened Strings
  import opened Strconv

  /** Protocol version announced by a zone; each part is a Go `uint`. */
  datatype Version = Version(major: nat, minor: nat, patch: nat)

  /** CONNECT: a zone announces itself. */
  datatype Connect = Connect(version: Version, swname: string, zonename: string,
                             hostname: string, password: string)

  /** PLOGIN: a zone asks to log a player in, or to register it when `flag` is set. */
  datatype Plogin = Plogin(pid: nat, flag: bool, name: string, pw: string,
                           ip: string, macid: nat, contid: string)

  /** Every component fits a Go `uint`. */
  predicate VersionInRange(v: Version)
  {
    v.major < UINT64_MODULUS && v.minor < UINT64_MODULUS && v.patch < UINT64_MODULUS
  }

  /** Parses the three '.'-separated version parts; the first part that is
      not an integer names the error. */
  function ParseVersion(versionField: seq<string>): (r: Result<Version, string>)
    requires |versionField| == 3
    ensures Atoi(versionField[0]).None? ==> r == Err("parseVersion: Major is not an int")
    ensures Atoi(versionField[0]).Some? && Atoi(versionField[1]).None? ==>
              r == Err("parseVersion: Minor is not an int")
    ensures Atoi(versionField[0]).Some? && Atoi(versionField[1]).Some? && Atoi(versionField[2]).None? ==>
              r == Err("parseVersion: Patch is not an int")
    ensures r.Ok? <==> forall i :: 0 <= i < 3 ==> Atoi(versionField[i]).Some?
    ensures r.Ok? ==> r.value == Version(Uint(Atoi(versionField[0]).value),
                                         Uint(Atoi(versionField[1]).value),
                                         Uint(Atoi(versionField[2]).value))
    ensures r.Ok? ==> VersionInRange(r.value)
  {
    match Atoi(versionField[0])
    case None => Err("parseVersion: Major is not an int")
    case Some(major) =>
      match Atoi(versionField[1])
      case None => Err("parseVersion: Minor is not an int")
      case Some(minor) =>
        match Atoi(versionField[2])
        case None => Err("parseVersion: Patch is not an int")
        case Some(patch) => Ok(Version(Uint(major), Uint(minor), Uint(patch)))
  }

  /** Parses the fields of a CONNECT line (`fields[0]` is the tag, not checked here). */
  function ParseConnect(fields: seq<string>): (r: Result<Connect, string>)
    ensures |fields| != 6 ==> r == Err("ParseConnect: Not enough fields")
    ensures |fields| == 6 && |Split(fields[1], '.')| != 3 ==>
              r == Err("ParseConnect: Version does not contain 3 values")
    ensures |fields| == 6 && |Split(fields[1], '.')| == 3 ==>
              var version := ParseVersion(Split(fields[1], '.'));
              && (r.Ok? <==> version.Ok?)
              && (version.Err? ==> r == Err(version.error))
              && (r.Ok? ==> r.value.version == version.value)
    ensures r.Ok? ==> |fields| == 6 && |Split(fields[1], '.')| == 3
    ensures r.Ok? ==> r.value.swname == fields[2] && r.value.zonename == fields[3]
                      && r.value.hostname == fields[4] && r.value.password == fields[5]
    ensures r.Ok? ==> VersionInRange(r.value.version)
  {
    if |fields| != 6 then Err("ParseConnect: Not enough fields")
    else
      var versionField := Split(fields[1], '.');
      if |versionField| != 3 then Err("ParseConnect: Version does not contain 3 values")
      else
        match ParseVersion(versionField)
        case Err(e) => Err(e)
        case Ok(version) => Ok(Connect(version, fields[2], fields[3], fields[4], fields[5]))
  }

  /** Parses the fields of a PLOGIN line. The flag is set only by the exact text "1". */
  function ParsePlogin(fields: seq<string>): (r: Result<Plogin, string>)
    ensures |fields| != 8 ==> r == Err("ParsePlogin: Not enough fields")
    ensures |fields| == 8 && Atoi(fields[1]).None? ==> r == Err("ParsePlogin: Invalid pid")
    ensures |fields| == 8 && Atoi(fields[1]).Some? && Atoi(fields[6]).None? ==>
              r == Err("ParsePlogin: Invalid macid")
    ensures r.Ok? <==> |fields| == 8 && Atoi(fields[1]).Some? && Atoi(fields[6]).Some?
    ensures r.Ok? ==> r.value.pid == Uint(Atoi(fields[1]).value)
                      && r.value.macid == Uint(Atoi(fields[6]).value)
    ensures r.Ok? ==> (r.value.flag <==> fields[2] == "1")
    ensures r.Ok? ==> r.value.name == fields[3] && r.value.pw == fields[4]
                      && r.value.ip == fields[5] && r.value.contid == fields[7]
  {
    if |fields| != 8 then Err("ParsePlogin: Not enough fields")
    else
      match Atoi(fields[1])
      case None => Err("ParsePlogin: Invalid pid")
      case Some(pid) =>
        var flag := fields[2] == "1";
        match Atoi(fields[6])
        case None => Err("ParsePlogin: Invalid macid")
        case Some(macid) =>
          Ok(Plogin(Uint(pid), flag, fields[3], fields[4], fields[5], Uint(macid), fields[7]))
  }

  // ---------------------------------------------------------------------
  // The zone side of the protocol: how a zone writes these messages. The
  // broker never sends them; they are the reference the parsers invert.
  // ---------------------------------------------------------------------

  function VersionText(v: Version): string
  {
    Join([FormatUint(v.major), FormatUint(v.minor), FormatUint(v.patch)], '.')
  }

  function ConnectLine(c: Connect): string
  {
    Join(["CONNECT", VersionText(c.version), c.swname, c.zonename, c.hostname, c.password], ':')
  }

  function PloginLine(m: Plogin): string
  {
    Join(["PLOGIN", FormatUint(m.pid), if m.flag then "1" else "0", m.name, m.pw, m.ip,
          FormatUint(m.macid), m.contid], ':')
  }

  /** Every version whose parts fit an `int` survives the trip through its text. */
  lemma ParseVersionRoundTrip(v: Version)
    requires v.major <= MAX_INT64 && v.minor <= MAX_INT64 && v.patch <= MAX_INT64
    ensures ':' !in VersionText(v)
    ensures |Split(VersionText(v), '.')| == 3
    ensures ParseVersion(Split(VersionText(v), '.')) == Ok(v)
  {
    var parts := [FormatUint(v.major), FormatUint(v.minor), FormatUint(v.patch)];
    FormatUintNoSeparators(v.major);
    FormatUintNoSeparators(v.minor);
    FormatUintNoSeparators(v.patch);
    SplitJoin(parts, '.');
    JoinAvoids(parts, '.', ':');
    AtoiFormatUint(v.major);
    AtoiFormatUint(v.minor);
    AtoiFormatUint(v.patch);
  }

  /** CONNECT round trip: a well-formed line written by a zone parses back to
      exactly the record it was written from. */
  lemma ParseConnectRoundTrip(c: Connect)
    requires c.version.major <= MAX_INT64 && c.version.minor <= MAX_INT64 && c.version.patch <= MAX_INT64
    requires ':' !in c.swname && ':' !in c.zonename && ':' !in c.hostname && ':' !in c.password
    ensures Split(ConnectLine(c), ':')[0] == "CONNECT"
    ensures ParseConnect(Split(ConnectLine(c), ':')) == Ok(c)
  {
    ParseVersionRoundTrip(c.version);
    var fields := ["CONNECT", VersionText(c.version), c.swname, c.zonename, c.hostname, c.password];
    assert Separable(fields, ':');
    SplitJoin(fields, ':');
    assert Split(ConnectLine(c), ':') == fields;
    assert ParseVersion(Split(fields[1], '.')) == Ok(c.version);
  }

  /** PLOGIN round trip, including the flag's "1"/"0" encoding. */
  lemma ParsePloginRoundTrip(m: Plogin)
    requires m.pid <= MAX_INT64 && m.macid <= MAX_INT64
    requires ':' !in m.name && ':' !in m.pw && ':' !in m.ip && ':' !in m.contid
    ensures Split(PloginLine(m), ':')[0] == "PLOGIN"
    ensures ParsePlogin(Split(PloginLine(m), ':')) == Ok(m)
  {
    FormatUintNoSeparators(m.pid);
    FormatUintNoSeparators(m.macid);
    AtoiFormatUint(m.pid);
    AtoiFormatUint(m.macid);
    var fields := ["PLOGIN", FormatUint(m.pid), if m.flag then "1" else "0", m.name, m.pw, m.ip,
                   FormatUint(m.macid), m.contid];
    SplitJoin(fields, ':');
  }

  /** A negative pid is accepted and wraps: "-n" becomes 2^64 - n, down to -2^63. */
  lemma ParsePloginNegativePid(fields: seq<string>, n: nat)
    requires 0 < n <= -MIN_INT64
    requires |fields| == 8 && fields[1] == "-" + FormatUint(n) && Atoi(fields[6]).Some?
    ensures ParsePlogin(fields).Ok? && ParsePlogin(fields).value.pid == UINT64_MODULUS - n
  {
    AtoiNegative(n);
  }
}

=== FILE: client.dfy ===
/**
 * The client revision of the per-connection dispatcher: one inbound line in,
 * the frames written out. It keeps no connection state; CONNECT is only
 * answered, PLOGIN goes to the PLOGIN handler, and every line that is not
 * dropped for being malformed is followed by a PING.
 */
module Client {
  import opened Results
  import opened Strings
  import opened Strconv
  import opened C2S
  import opened S2C
  import opened Billing
  import opened Handlers

  /** Whether a parsed CONNECT announces the broker's major and minor
      version; the patch number is not compared. */
  predicate VersionMatches(v: Version)
  {
    v.major == PROTOCOL_MAJOR && v.minor == PROTOCOL_MINOR
  }

  /** One step of the dispatcher over the line as received. */
  function HandleMessage(b: Biller, buffer: string, existsFault: bool, insertFault: InsertFault): (r: (Biller, seq<Frame>))
    ensures var fields := Split(buffer, ':');
            r.1 == [] <==> || (fields[0] == "CONNECT" && ParseConnect(fields).Err?)
                           || (fields[0] == "PLOGIN" && ParsePlogin(fields).Err?)
    ensures r.1 == [] ==> r.0 == b
    ensures r.1 != [] ==> |r.1| <= 2 && r.1[|r.1| - 1] == Ping
                          && forall i :: 0 <= i < |r.1| - 1 ==> r.1[i].Send?
    ensures var fields := Split(buffer, ':');
            fields[0] == "CONNECT" && ParseConnect(fields).Ok? ==>
              && r.0 == b
              && r.1 == [Send(if VersionMatches(ParseConnect(fields).value.version) then ConnectOk
                              else ConnectBad("Protocol mismatch")), Ping]
    ensures var fields := Split(buffer, ':');
            fields[0] == "PLOGIN" && ParsePlogin(fields).Ok? ==>
              var reply := HandlePlogin(b, ParsePlogin(fields).value, existsFault, insertFault);
              r == (reply.0, [Send(reply.1), Ping])
    ensures var fields := Split(buffer, ':');
            fields[0] != "CONNECT" && fields[0] != "PLOGIN" ==> r == (b, [Ping])
    ensures r.0.players == b.players && r.0.zones == b.zones
    ensures Valid(b) ==> Valid(r.0)
  {
    var fields := Split(buffer, ':');
    if fields[0] == "CONNECT" then
      match ParseConnect(fields)
      case Err(_) => (b, [])
      case Ok(msg) =>
        var reply := if !VersionMatches(msg.version) then ConnectBad("Protocol mismatch") else ConnectOk;
        (b, [Send(reply), Ping])
    else if fields[0] == "PLOGIN" then
      match ParsePlogin(fields)
      case Err(_) => (b, [])
      case Ok(msg) =>
        var (b', reply) := HandlePlogin(b, msg, existsFault, insertFault);
        (b', [Send(reply), Ping])
    else
      (b, [Ping])
  }

  /** A CONNECT line written by a zone is answered CONNECTOK exactly when its
      major and minor version are 1 and 3, whatever its patch number. */
  lemma ConnectAnswer(b: Biller, c: Connect, existsFault: bool, insertFault: InsertFault)
    requires c.version.major <= MAX_INT64 && c.version.minor <= MAX_INT64 && c.version.patch <= MAX_INT64
    requires ':' !in c.swname && ':' !in c.zonename && ':' !in c.hostname && ':' !in c.password
    ensures (HandleMessage(b, ConnectLine(c), existsFault, insertFault).1 == [Send(ConnectOk), Ping])
            <==> c.version.major == 1 && c.version.minor == 3
    ensures (HandleMessage(b, ConnectLine(c), existsFault, insertFault).1
             == [Send(ConnectBad("Protocol mismatch")), Ping])
            <==> !(c.version.major == 1 && c.version.minor == 3)
  {
    ParseConnectRoundTrip(c);
  }

  /** The register-then-login exchange of the client revision for a fresh
      name: a plain PLOGIN is told the name is new (PBAD with flag "1"); a
      register PLOGIN creates the account and gets POK; a repeated plain
      PLOGIN gets POK again, since this revision opens no session and so
      never answers "already logged in". */
  lemma RegisterExchange(b: Biller, m: Plogin)
    requires Valid(b)
    requires !m.flag && m.pid <= MAX_INT64 && m.macid <= MAX_INT64
    requires ':' !in m.name && ':' !in m.pw && ':' !in m.ip && ':' !in m.contid
    requires m.name !in b.store.accounts
    ensures var r1 := HandleMessage(b, PloginLine(m), false, NoFault);
            && r1 == (b, [Send(Pbad(m.pid, true, "User does not exist")), Ping])
            && var r2 := HandleMessage(b, PloginLine(m.(flag := true)), false, NoFault);
               && r2.1 == [Send(Welcome(m.(flag := true))), Ping]
               && m.name in r2.0.store.accounts && r2.0.store.accounts[m.name].password == m.pw
               && var r3 := HandleMessage(r2.0, PloginLine(m), false, NoFault);
                  && r3 == (r2.0, [Send(Welcome(m)), Ping])
                  && r3.0.players == b.players
  {
    ParsePloginRoundTrip(m);
    ParsePloginRoundTrip(m.(flag := true));
  }
}

=== FILE: connection.dfy ===
/**
 * The connection revision of the per-connection dispatcher: a state machine
 * over the zone name the connection is bound to ("" until a CONNECT is
 * accepted). Its PLOGIN handler, the PENTERARENA parser and the PENTERARENA
 * handler are not part of this model and enter as callbacks; `E` is the
 * parsed PENTERARENA record. Callbacks are taken neither to close the
 * connection nor to change the bound zone: they return only the new biller
 * and their replies.
 */
module Connection {
  import opened Results
  import opened Strings
  import opened Strconv
  import opened C2S
  import opened S2C
  import opened Billing
  import opened Client

  datatype ConnState = ConnState(zone: string)

  /** The handlers the dispatcher calls. Each is a deterministic function of
      its arguments, so faults the handlers might meet in the store (which
      could answer the same line differently on another occasion) are fixed
      per callback value rather than varying from call to call. */
  datatype Callbacks<!E> = Callbacks(
    handlePlogin: (Biller, string, Plogin) -> (Biller, seq<Message>),
    parsePenterArena: seq<string> -> Option<E>,
    handlePenterArena: (Biller, string, E) -> (Biller, seq<Message>))

  /** The outcome of handling lines: new biller state, new connection state,
      the messages sent, and whether the connection was closed. */
  datatype Step = Step(biller: Biller, state: ConnState, sent: seq<Message>, disconnected: bool)

  /** The CONNECT that the dispatcher accepts while unbound. */
  predicate AcceptedConnect(fields: seq<string>)
  {
    ParseConnect(fields).Ok? && fields[0] == "CONNECT" && VersionMatches(ParseConnect(fields).value.version)
  }

  /** The bound zone, when there is one, is registered with the biller. */
  predicate ZoneRegistered(b: Biller, st: ConnState)
  {
    st.zone == "" || st.zone in b.zones
  }

  /** One step of the dispatcher over the line as received. */
  function HandleMessage<E>(b: Biller, st: ConnState, buffer: string, cb: Callbacks<E>): (r: Step)
    ensures var fields := Split(buffer, ':');
            st.zone == "" && AcceptedConnect(fields) ==>
              var zn := ParseConnect(fields).value.zonename;
              && r.biller == CreateZone(b, zn) && r.state == ConnState(zn)
              && r.sent == (if zn == "" then [ConnectBad("Invalid zonename"), ConnectOk] else [ConnectOk])
    // Each refusal names its reason, closes, and leaves biller and binding as they were.
    ensures var fields := Split(buffer, ':');
            st.zone != "" && fields[0] != "CONNECT" ==>
              r == Step(b, st, [ConnectBad("Not yet connected")], true)
    ensures var fields := Split(buffer, ':');
            fields[0] == "CONNECT" && ParseConnect(fields).Err? ==>
              r == Step(b, st, [ConnectBad("Wrong connection message")], true)
    ensures var fields := Split(buffer, ':');
            fields[0] == "CONNECT" && ParseConnect(fields).Ok? && st.zone != "" ==>
              r == Step(b, st, [ConnectBad("Already connected")], true)
    ensures var fields := Split(buffer, ':');
            && fields[0] == "CONNECT" && ParseConnect(fields).Ok? && st.zone == ""
            && !VersionMatches(ParseConnect(fields).value.version) ==>
              r == Step(b, st, [ConnectBad("Protocol mismatch")], true)
    // Well-formed PLOGIN and PENTERARENA lines go to their handlers, with the
    // (necessarily empty) bound zone name, and nothing is added to their replies.
    ensures var fields := Split(buffer, ':');
            st.zone == "" && fields[0] == "PLOGIN" && ParsePlogin(fields).Ok? ==>
              var out := cb.handlePlogin(b, "", ParsePlogin(fields).value);
              r == Step(out.0, st, out.1, false)
    ensures var fields := Split(buffer, ':');
            st.zone == "" && fields[0] == "PENTERARENA" && cb.parsePenterArena(fields).Some? ==>
              var out := cb.handlePenterArena(b, "", cb.parsePenterArena(fields).value);
              r == Step(out.0, st, out.1, false)
    // Lines that are neither CONNECT, PLOGIN nor PENTERARENA do nothing.
    ensures var fields := Split(buffer, ':');
            st.zone == "" && fields[0] != "CONNECT" && fields[0] != "PLOGIN" && fields[0] != "PENTERARENA" ==>
              r == Step(b, st, [], false)
    // Malformed PLOGIN and PENTERARENA lines are dropped.
    ensures var fields := Split(buffer, ':');
            st.zone == "" && ((fields[0] == "PLOGIN" && ParsePlogin(fields).Err?)
                              || (fields[0] == "PENTERARENA" && cb.parsePenterArena(fields).None?)) ==>
              r == Step(b, st, [], false)
  {
    var fields := Split(buffer, ':');
    if st.zone != "" && fields[0] != "CONNECT" then
      Step(b, st, [ConnectBad("Not yet connected")], true)
    else if fields[0] == "CONNECT" then
      match ParseConnect(fields)
      case Err(_) => Step(b, st, [ConnectBad("Wrong connection message")], true)
      case Ok(msg) =>
        if st.zone != "" then Step(b, st, [ConnectBad("Already connected")], true)
        else if !VersionMatches(msg.version) then Step(b, st, [ConnectBad("Protocol mismatch")], true)
        else
          // An empty zone name is refused, yet handling carries on.
          var refused := if msg.zonename == "" then [ConnectBad("Invalid zonename")] else [];
          Step(CreateZone(b, msg.zonename), ConnState(msg.zonename), refused + [ConnectOk], msg.zonename == "")
    else if fields[0] == "PLOGIN" then
      match ParsePlogin(fields)
      case Err(_) => Step(b, st, [], false)
      case Ok(msg) =>
        var (b', out) := cb.handlePlogin(b, st.zone, msg);
        Step(b', st, out, false)
    else if fields[0] == "PENTERARENA" then
      match cb.parsePenterArena(fields)
      case None => Step(b, st, [], false)
      case Some(msg) =>
        var (b', out) := cb.handlePenterArena(b, st.zone, msg);
        Step(b', st, out, false)
    else
      Step(b, st, [], false)
  }

  /** A bound connection refuses any line with one CONNECTBAD and closes,
      biller and binding untouched. */
  lemma BoundStepRefuses<E>(b: Biller, st: ConnState, buffer: string, cb: Callbacks<E>)
    ensures var r := HandleMessage(b, st, buffer, cb);
            st.zone != "" ==>
            && r.biller == b && r.state == st && r.disconnected
            && |r.sent| == 1 && r.sent[0].ConnectBad?
  {
  }

  /** Closing always follows a CONNECTBAD, and happens exactly on a refusal
      or on an accepted CONNECT with an empty zone name. */
  lemma CloseFollowsRefusal<E>(b: Biller, st: ConnState, buffer: string, cb: Callbacks<E>)
    ensures var r := HandleMessage(b, st, buffer, cb);
            r.disconnected ==> |r.sent| >= 1 && r.sent[0].ConnectBad?
    ensures var r := HandleMessage(b, st, buffer, cb);
            var fields := Split(buffer, ':');
            r.disconnected <==> st.zone != "" || (fields[0] == "CONNECT" && !AcceptedConnect(fields))
                                || (AcceptedConnect(fields) && ParseConnect(fields).value.zonename == "")
  {
  }

  /** The bound zone changes only by an accepted CONNECT on an unbound
      connection, answered last by CONNECTOK, and a bound zone stays
      registered. */
  lemma BindingChanges<E>(b: Biller, st: ConnState, buffer: string, cb: Callbacks<E>)
    ensures var r := HandleMessage(b, st, buffer, cb);
            var fields := Split(buffer, ':');
            r.state != st ==>
              && st.zone == "" && AcceptedConnect(fields)
              && r.state.zone == ParseConnect(fields).value.zonename
              && |r.sent| >= 1 && r.sent[|r.sent| - 1] == ConnectOk
    ensures var r := HandleMessage(b, st, buffer, cb);
            ZoneRegistered(b, st) ==> ZoneRegistered(r.biller, r.state)
  {
    var fields := Split(buffer, ':');
    if st.zone == "" && AcceptedConnect(fields) {
      var zn := ParseConnect(fields).value.zonename;
      assert zn in CreateZone(b, zn).zones;
    }
  }

  /** The connection's loop over the chunks its reader delivered, in order.
      The loop never looks at whether the connection was closed: it stops only
      when the reader stops delivering, so `lines` holds every chunk read,
      including one the reader already held when a handler closed the socket. */
  function Run<E>(b: Biller, st: ConnState, lines: seq<string>, cb: Callbacks<E>): (r: Step)
    ensures ZoneRegistered(b, st) ==> ZoneRegistered(r.biller, r.state)
    ensures st.zone != "" ==> r.state == st && r.biller == b
    ensures st.zone != "" ==>
              && r.disconnected == (|lines| > 0) && |r.sent| == |lines|
              && forall i :: 0 <= i < |r.sent| ==> r.sent[i].ConnectBad?
    ensures r.disconnected ==> exists m :: m in r.sent && m.ConnectBad?
    decreases |lines|
  {
    if |lines| == 0 then Step(b, st, [], false)
    else
      var s := HandleMessage(b, st, lines[0], cb);
      BoundStepRefuses(b, st, lines[0], cb);
      CloseFollowsRefusal(b, st, lines[0], cb);
      BindingChanges(b, st, lines[0], cb);
      var rest := Run(s.biller, s.state, lines[1..], cb);
      assert s.disconnected ==> s.sent[0] in s.sent + rest.sent;
      Step(rest.biller, rest.state, s.sent + rest.sent, s.disconnected || rest.disconnected)
  }

  /** A well-formed CONNECT from a zone with the broker's version, on an
      unbound connection, registers the zone, sets the bound zone to its name
      and answers CONNECTOK. An empty zone name is refused and the connection
      closed first, yet the zone "" is created and the bound zone set to "",
      which leaves the connection unbound. */
  lemma ConnectBinds<E>(b: Biller, c: Connect, cb: Callbacks<E>)
    requires c.version.major == 1 && c.version.minor == 3 && c.version.patch <= MAX_INT64
    requires ':' !in c.swname && ':' !in c.zonename && ':' !in c.hostname && ':' !in c.password
    ensures var r := HandleMessage(b, ConnState(""), ConnectLine(c), cb);
            && r.biller == CreateZone(b, c.zonename)
            && r.state == ConnState(c.zonename)
            && c.zonename in r.biller.zones
            && (c.zonename != "" ==> r.sent == [ConnectOk] && !r.disconnected)
            && (c.zonename == "" ==> r.sent == [ConnectBad("Invalid zonename"), ConnectOk] && r.disconnected)
  {
    ParseConnectRoundTrip(c);
  }

  /** After a CONNECT with the empty zone name the connection is still
      unbound, so a second well-formed 1.3.x CONNECT is accepted again
      instead of being answered "Already connected". */
  lemma EmptyZoneStaysUnbound<E>(b: Biller, c: Connect, c2: Connect, cb: Callbacks<E>)
    requires c.version.major == 1 && c.version.minor == 3 && c.version.patch <= MAX_INT64
    requires c2.version.major == 1 && c2.version.minor == 3 && c2.version.patch <= MAX_INT64
    requires c.zonename == "" && c2.zonename != ""
    requires ':' !in c.swname && ':' !in c.hostname && ':' !in c.password
    requires ':' !in c2.swname && ':' !in c2.zonename && ':' !in c2.hostname && ':' !in c2.password
    ensures var r1 := HandleMessage(b, ConnState(""), ConnectLine(c), cb);
            && r1.state == ConnState("")
            && var r2 := HandleMessage(r1.biller, r1.state, ConnectLine(c2), cb);
               r2.sent == [ConnectOk] && r2.state == ConnState(c2.zonename)
  {
    ConnectBinds(b, c, cb);
    ConnectBinds(HandleMessage(b, ConnState(""), ConnectLine(c), cb).biller, c2, cb);
  }

  /** A version other than 1.3.x is refused, the connection closed, and the
      biller untouched. */
  lemma ConnectMismatch<E>(b: Biller, c: Connect, cb: Callbacks<E>)
    requires c.version.major <= MAX_INT64 && c.version.minor <= MAX_INT64 && c.version.patch <= MAX_INT64
    requires c.version.major != 1 || c.version.minor != 3
    requires ':' !in c.swname && ':' !in c.zonename && ':' !in c.hostname && ':' !in c.password
    ensures HandleMessage(b, ConnState(""), ConnectLine(c), cb)
            == Step(b, ConnState(""), [ConnectBad("Protocol mismatch")], true)
  {
    ParseConnectRoundTrip(c);
  }

  /** The guard is inverted: after a successful CONNECT naming a non-empty
      zone the very next line, a PLOGIN included, is answered "Not yet
      connected" and closes the connection, so no player can log in through
      it; any chunk still delivered afterwards is refused too. */
  lemma ConnectedRejectsPlogin<E>(b: Biller, c: Connect, m: Plogin, rest: seq<string>, cb: Callbacks<E>)
    requires c.version.major == 1 && c.version.minor == 3 && c.version.patch <= MAX_INT64
    requires c.zonename != ""
    requires ':' !in c.swname && ':' !in c.zonename && ':' !in c.hostname && ':' !in c.password
    requires m.pid <= MAX_INT64 && m.macid <= MAX_INT64
    requires ':' !in m.name && ':' !in m.pw && ':' !in m.ip && ':' !in m.contid
    ensures var r := Run(b, ConnState(""), [ConnectLine(c), PloginLine(m)] + rest, cb);
            && r.biller == CreateZone(b, c.zonename) && r.state == ConnState(c.zonename)
            && r.disconnected && |r.sent| == 2 + |rest|
            && r.sent[0] == ConnectOk && r.sent[1] == ConnectBad("Not yet connected")
  {
    var lines := [ConnectLine(c), PloginLine(m)] + rest;
    ConnectBinds(b, c, cb);
    ParsePloginRoundTrip(m);
    assert lines[0] == ConnectLine(c) && lines[1] == PloginLine(m);
    BoundAfterFirst(b, ConnState(""), lines, CreateZone(b, c.zonename), ConnState(c.zonename), cb);
  }

  /** The run over a non-empty sequence is its first step `s` followed by the
      run `t` over the rest. */
  lemma RunAfter<E>(b: Biller, st: ConnState, lines: seq<string>, cb: Callbacks<E>, s: Step, t: Step)
    requires |lines| > 0
    requires s == HandleMessage(b, st, lines[0], cb)
    requires t == Run(s.biller, s.state, lines[1..], cb)
    ensures Run(b, st, lines, cb) == Step(t.biller, t.state, s.sent + t.sent, s.disconnected || t.disconnected)
  {
  }

  /** A run whose first line binds the connection with CONNECTOK alone and
      whose second line is not a CONNECT: the second line is refused and
      closes, every chunk after it is refused, and the binding stays. */
  lemma BoundAfterFirst<E>(b: Biller, st: ConnState, lines: seq<string>, b1: Biller, st1: ConnState,
                           cb: Callbacks<E>)
    requires |lines| >= 2 && st1.zone != "" && Split(lines[1], ':')[0] != "CONNECT"
    requires HandleMessage(b, st, lines[0], cb) == Step(b1, st1, [ConnectOk], false)
    ensures var r := Run(b, st, lines, cb);
            && r.biller == b1 && r.state == st1
            && r.disconnected && |r.sent| == |lines|
            && r.sent[0] == ConnectOk && r.sent[1] == ConnectBad("Not yet connected")
  {
    var tail := lines[1..];
    var t := Run(b1, st1, tail, cb);
    BoundRunStops(b1, st1, tail, cb);
    RunAfter(b, st, lines, cb, Step(b1, st1, [ConnectOk], false), t);
    assert ([ConnectOk] + t.sent)[1] == t.sent[0];
  }

  /** On a bound connection the first line that is not a CONNECT is refused
      with "Not yet connected", and the connection ends closed and bound. */
  lemma BoundRunStops<E>(b: Biller, st: ConnState, lines: seq<string>, cb: Callbacks<E>)
    requires st.zone != "" && |lines| > 0 && Split(lines[0], ':')[0] != "CONNECT"
    ensures var r := Run(b, st, lines, cb);
            && r.biller == b && r.state == st && r.disconnected
            && |r.sent| == |lines| && r.sent[0] == ConnectBad("Not yet connected")
  {
  }

  /** While unbound, the PLOGIN handler runs with the empty zone name. */
  lemma UnboundPloginUsesEmptyZone<E>(b: Biller, m: Plogin, cb: Callbacks<E>)
    requires m.pid <= MAX_INT64 && m.macid <= MAX_INT64
    requires ':' !in m.name && ':' !in m.pw && ':' !in m.ip && ':' !in m.contid
    ensures var out := cb.handlePlogin(b, "", m);
            HandleMessage(b, ConnState(""), PloginLine(m), cb) == Step(out.0, ConnState(""), out.1, false)
  {
    ParsePloginRoundTrip(m);
  }
}

=== FILE: handlers.dfy ===
/**
 * The PLOGIN handler of the client revision of the dispatcher: it answers
 * register requests by creating the account and plain requests by checking
 * that the account exists. It never opens a session and never looks at the
 * password of a plain request.
 */
module Handlers {
  import opened Strings
  import opened Strconv
  import opened C2S
  import opened S2C
  import opened Billing

  /** The fixed account summary sent on success. */
  function Welcome(msg: Plogin): (m: Message)
    ensures m.Pok? && m.pid == msg.pid && m.name == msg.name
  {
    Pok(msg.pid, "", msg.name, "some squad", 123, 60, "1-2-1999 6:13:35")
  }

  /** The first-used text of the success reply holds two ':', so on the wire
      the POK it is sent in splits into ten fields, not the eight of its
      layout: the time's hour, minute and second land in fields 7 to 9. */
  lemma WelcomeTenFields(msg: Plogin)
    requires ':' !in msg.name
    ensures Split(Render(Welcome(msg)), ':') ==
            ["POK", FormatUint(msg.pid), "", msg.name, "some squad", FormatUint(123), FormatUint(60)]
            + ["1-2-1999 6", "13", "35"]
    ensures |Split(Render(Welcome(msg)), ':')| == 10
  {
    var head := ["POK", FormatUint(msg.pid), "", msg.name, "some squad", FormatUint(123), FormatUint(60)];
    var time := ["1-2-1999 6", "13", "35"];
    assert Separable(head + time, ':') by {
      FormatUintNoSeparators(msg.pid);
      FormatUintNoSeparators(123);
      FormatUintNoSeparators(60);
      assert Separable(head, ':');
      assert Separable(time, ':');
      SeparableConcat(head, time, ':');
    }
    SplitJoin(head + time, ':');
    WelcomeLine(msg);
  }

  /** The success reply's text with its first-used time taken apart. */
  lemma WelcomeLine(msg: Plogin)
    ensures Render(Welcome(msg)) ==
            Join(["POK", FormatUint(msg.pid), "", msg.name, "some squad", FormatUint(123), FormatUint(60)]
                 + ["1-2-1999 6", "13", "35"], ':')
  {
    var head := ["POK", FormatUint(msg.pid), "", msg.name, "some squad", FormatUint(123), FormatUint(60)];
    var time := ["1-2-1999 6", "13", "35"];
    FirstUsedText();
    assert Fields(Welcome(msg)) == head + [Join(time, ':')];
    JoinFlatten(head, time, ':');
  }

  /** The first-used text is the time's parts joined by ':'. */
  lemma FirstUsedText()
    ensures Join(["1-2-1999 6", "13", "35"], ':') == "1-2-1999 6:13:35"
  {
    var time := ["1-2-1999 6", "13", "35"];
    assert time[1..] == ["13", "35"];
    assert ["13", "35"][1..] == ["35"];
    assert Join(["35"], ':') == "35";
    assert Join(["13", "35"], ':') == "13:35";
  }

  /** Answers one PLOGIN. `existsFault` is the outcome of the existence
      query, `insertFault` that of the INSERT a register request makes. */
  function HandlePlogin(b: Biller, msg: Plogin, existsFault: bool, insertFault: InsertFault): (r: (Biller, Message))
    ensures (r.1.Pok? || r.1.Pbad?) && r.1.pid == msg.pid
    ensures r.0.players == b.players && r.0.zones == b.zones
    ensures r.1.Pok? ==> r.1 == Welcome(msg)
    ensures msg.flag && UserExists(b, msg.name, existsFault) ==>
              r == (b, Pbad(msg.pid, false, "Can't create user. User already exists"))
    ensures msg.flag && !UserExists(b, msg.name, existsFault) ==>
              var created := CreateUser(b, msg.name, msg.pw, insertFault);
              && r.0 == created.0
              && r.1 == (if created.1.Some? then Pbad(msg.pid, false, "Could not create user") else Welcome(msg))
    ensures !msg.flag ==> r.0 == b
    ensures !msg.flag ==>
              r.1 == (if UserExists(b, msg.name, existsFault) then Welcome(msg)
                      else Pbad(msg.pid, true, "User does not exist"))
    ensures Valid(b) ==> Valid(r.0)
  {
    if msg.flag then
      if UserExists(b, msg.name, existsFault) then
        (b, Pbad(msg.pid, false, "Can't create user. User already exists"))
      else
        var (b', err) := CreateUser(b, msg.name, msg.pw, insertFault);
        if err.Some? then (b', Pbad(msg.pid, false, "Could not create user"))
        else (b', Welcome(msg))
    else if !UserExists(b, msg.name, existsFault) then
      (b, Pbad(msg.pid, true, "User does not exist"))
    else
      (b, Welcome(msg))
  }

  /** No credential check: for a plain request the password makes no difference. */
  lemma PasswordIgnored(b: Biller, msg: Plogin, pw: string, existsFault: bool, insertFault: InsertFault)
    requires !msg.flag
    ensures HandlePlogin(b, msg.(pw := pw), existsFault, insertFault).1.Pok?
            == HandlePlogin(b, msg, existsFault, insertFault).1.Pok?
    ensures HandlePlogin(b, msg.(pw := pw), existsFault, insertFault).0
            == HandlePlogin(b, msg, existsFault, insertFault).0
  {
  }

  /** A successful registration reply is sent only when the account now exists
      with the requested password, or when the INSERT silently affected no row. */
  lemma RegisterReplyMeaning(b: Biller, msg: Plogin, existsFault: bool, insertFault: InsertFault)
    requires msg.flag
    requires HandlePlogin(b, msg, existsFault, insertFault).1.Pok?
    ensures var b' := HandlePlogin(b, msg, existsFault, insertFault).0;
            msg.name !in b.store.accounts
            && (|| (msg.name in b'.store.accounts && b'.store.accounts[msg.name].password == msg.pw
                    && insertFault == NoFault)
                || (b' == b && insertFault == NoRowAffected))
  {
  }

  /** The quirk of the INSERT check: an INSERT that affects no row without
      an error leaves the account missing, yet the zone is told "created". */
  lemma RegisterReplyWithoutAccount(b: Biller, msg: Plogin)
    requires msg.flag && msg.name !in b.store.accounts
    ensures HandlePlogin(b, msg, false, NoRowAffected) == (b, Welcome(msg))
    ensures msg.name !in HandlePlogin(b, msg, false, NoRowAffected).0.store.accounts
  {
  }
}

=== FILE: results.dfy ===
/** Failure-carrying return values: Go's `(value, ok)` and `(value, error)` pairs. */
module Results {

  /** A value that may be absent (Go's `(v, ok)` with `ok == false` as None). */
  datatype Option<+T> = None | Some(value: T)

  /** A value or an error (Go's `(v, err)` with `err != nil` as Err). */
  datatype Result<+T, +E> = Ok(value: T) | Err(error: E)
}

=== FILE: s2c.dfy ===
/**
 * Broker-to-zone messages, the protocol constants, and how each message is
 * written on the wire: ':'-separated fields, numbers in decimal, one line
 * per message.
 */
module S2C {
  import opened Results
  import opened Strings
  import opened Strconv

  const SERVER_NAME: string := "Gobs 0.0"
  const SERVER_NETWORK: string := ""
  const PROTOCOL_MAJOR: nat := 1
  const PROTOCOL_MINOR: nat := 3
  const PROTOCOL_PATCH: nat := 1

  /** The replies the broker sends. */
  datatype Message =
    | ConnectOk
    | ConnectBad(reason: string)
    | Pok(pid: nat, rtext: string, name: string, squad: string,
          billerId: nat, usage: nat, firstUsed: string)
    | Pbad(pid: nat, newName: bool, rtext: string)

  /** What a handler writes to the socket: a rendered message, or the bare
      keep-alive "PING" line. */
  datatype Frame = Send(msg: Message) | Ping

  /** The text fields of a message hold no `c`. */
  predicate FieldsAvoid(m: Message, c: char)
  {
    match m
    case ConnectOk => true
    case ConnectBad(reason) => c !in reason
    case Pok(_, rtext, name, squad, _, _, firstUsed) =>
      c !in rtext && c !in name && c !in squad && c !in firstUsed
    case Pbad(_, _, rtext) => c !in rtext
  }

  /** The fields of a message in wire order (its `String()` format). */
  function Fields(m: Message): seq<string>
  {
    match m
    case ConnectOk => ["CONNECTOK", SERVER_NAME, SERVER_NETWORK]
    case ConnectBad(reason) => ["CONNECTBAD", SERVER_NAME, SERVER_NETWORK, reason]
    case Pok(pid, rtext, name, squad, billerId, usage, firstUsed) =>
      ["POK", FormatUint(pid), rtext, name, squad, FormatUint(billerId), FormatUint(usage), firstUsed]
    case Pbad(pid, newName, rtext) =>
      ["PBAD", FormatUint(pid), if newName then "1" else "0", rtext]
  }

  /** The text of a message (its `String()` method), without the newline:
      its fields joined by ':'. A message whose text fields hold no newline
      is a single line. */
  function Render(m: Message): (r: string)
    ensures FieldsAvoid(m, '\n') ==> '\n' !in r
  {
    JoinedFieldsOneLine(m);
    Join(Fields(m), ':')
  }

  /** A receiver reading the first ':'-field of a rendered message finds its
      tag, whatever the other fields hold. */
  lemma RenderTag(m: Message)
    ensures m.ConnectOk? <==> Split(Render(m), ':')[0] == "CONNECTOK"
    ensures m.ConnectBad? <==> Split(Render(m), ':')[0] == "CONNECTBAD"
    ensures m.Pok? <==> Split(Render(m), ':')[0] == "POK"
    ensures m.Pbad? <==> Split(Render(m), ':')[0] == "PBAD"
  {
    SplitJoinHead(Fields(m), ':');
  }

  /** Numbers are written as digits, so a newline can come only from a text field. */
  lemma JoinedFieldsOneLine(m: Message)
    ensures FieldsAvoid(m, '\n') ==> '\n' !in Join(Fields(m), ':')
  {
    if FieldsAvoid(m, '\n') {
      if m.Pok? {
        FormatUintAvoids(m.pid, '\n');
        FormatUintAvoids(m.billerId, '\n');
        FormatUintAvoids(m.usage, '\n');
      } else if m.Pbad? {
        FormatUintAvoids(m.pid, '\n');
      }
      JoinAvoids(Fields(m), ':', '\n');
    }
  }

  /** The bytes written for a frame (`Send` and the bare `PING` of the client
      revision): one line, ending in its only newline when the message's text
      fields hold none. */
  function Bytes(f: Frame): (r: string)
    ensures |r| >= 1 && r[|r| - 1] == '\n'
    ensures f.Send? ==> r[..|r| - 1] == Render(f.msg)
    ensures f.Ping? ==> r[..|r| - 1] == "PING"
    ensures (f.Send? ==> FieldsAvoid(f.msg, '\n')) ==> '\n' !in r[..|r| - 1]
  {
    var line := match f
      case Send(m) => Render(m)
      case Ping => "PING";
    assert (line + "\n")[..|line|] == line;
    line + "\n"
  }

  /** The literal wire text of the two connection replies. */
  lemma RenderConnectReplies(reason: string)
    ensures Render(ConnectOk) == "CONNECTOK:Gobs 0.0:"
    ensures Render(ConnectBad(reason)) == "CONNECTBAD:Gobs 0.0::" + reason
  {
    var ok := ["CONNECTOK", SERVER_NAME, SERVER_NETWORK];
    assert ok[1..] == [SERVER_NAME, SERVER_NETWORK];
    assert [SERVER_NAME, SERVER_NETWORK][1..] == [SERVER_NETWORK];
    assert Join([SERVER_NETWORK], ':') == "";
    assert Join([SERVER_NAME, SERVER_NETWORK], ':') == "Gobs 0.0" + [':'];
    assert Join(ok, ':') == "CONNECTOK" + [':'] + "Gobs 0.0" + [':'];
    var bad := ["CONNECTBAD", SERVER_NAME, SERVER_NETWORK, reason];
    assert bad[1..] == [SERVER_NAME, SERVER_NETWORK, reason];
    assert bad[1..][1..] == [SERVER_NETWORK, reason];
    assert bad[1..][1..][1..] == [reason];
    assert Join([reason], ':') == reason;
    assert Join([SERVER_NETWORK, reason], ':') == [':'] + reason;
    assert Join([SERVER_NAME, SERVER_NETWORK, reason], ':') == "Gobs 0.0" + [':'] + [':'] + reason;
    assert Join(bad, ':') == "CONNECTBAD" + [':'] + "Gobs 0.0" + [':'] + [':'] + reason;
  }

  /** A CONNECTBAD line splits into tag, server name, network and the reason,
      when the reason holds no ':'. */
  lemma RenderConnectBadFields(reason: string)
    requires ':' !in reason
    ensures Split(Render(ConnectBad(reason)), ':') == ["CONNECTBAD", SERVER_NAME, SERVER_NETWORK, reason]
  {
    SplitJoin(["CONNECTBAD", SERVER_NAME, SERVER_NETWORK, reason], ':');
  }

  /** A POK line has exactly eight fields, in the order tag, pid, text, name,
      squad, billerId, usage, first-used, when the text fields hold no ':';
      the numeric fields read back as the values written while they fit an
      `int` (a wrapped negative pid is written as its unsigned value). */
  lemma RenderPokFields(m: Message)
    requires m.Pok?
    requires ':' !in m.rtext && ':' !in m.name && ':' !in m.squad && ':' !in m.firstUsed
    ensures |Split(Render(m), ':')| == 8
    ensures Split(Render(m), ':') ==
            ["POK", FormatUint(m.pid), m.rtext, m.name, m.squad, FormatUint(m.billerId),
             FormatUint(m.usage), m.firstUsed]
    ensures m.pid <= MAX_INT64 ==> Atoi(Split(Render(m), ':')[1]) == Some(m.pid)
    ensures m.billerId <= MAX_INT64 ==> Atoi(Split(Render(m), ':')[5]) == Some(m.billerId)
    ensures m.usage <= MAX_INT64 ==> Atoi(Split(Render(m), ':')[6]) == Some(m.usage)
  {
    FormatUintNoSeparators(m.pid);
    FormatUintNoSeparators(m.billerId);
    FormatUintNoSeparators(m.usage);
    SplitJoin(Fields(m), ':');
    if m.pid <= MAX_INT64 {
      AtoiFormatUint(m.pid);
    }
    if m.billerId <= MAX_INT64 {
      AtoiFormatUint(m.billerId);
    }
    if m.usage <= MAX_INT64 {
      AtoiFormatUint(m.usage);
    }
  }

  /** A PBAD line carries the pid, then "1" exactly when the new-name flag is
      set and "0" otherwise, then the reason. */
  lemma RenderPbadFields(m: Message)
    requires m.Pbad?
    requires ':' !in m.rtext
    ensures Split(Render(m), ':') ==
            ["PBAD", FormatUint(m.pid), if m.newName then "1" else "0", m.rtext]
    ensures m.pid <= MAX_INT64 ==> Atoi(Split(Render(m), ':')[1]) == Some(m.pid)
    ensures Split(Render(m), ':')[2] == "1" <==> m.newName
    ensures Split(Render(m), ':')[2] == "0" <==> !m.newName
  {
    FormatUintNoSeparators(m.pid);
    SplitJoin(Fields(m), ':');
    if m.pid <= MAX_INT64 {
      AtoiFormatUint(m.pid);
    }
  }
}

=== FILE: strconv.dfy ===
/**
 * The integer conversions the protocol code relies on: Go's `strconv.Atoi`
 * (decimal, optional sign, 64-bit `int` range), the `uint(...)` conversion
 * of its result (two's-complement wrap modulo 2^64), and the `%d` rendering
 * of an unsigned value.
 */
module Strconv {
  import opened Results

  const MAX_INT64: int := 0x7fff_ffff_ffff_ffff
  const MIN_INT64: int := -0x8000_0000_0000_0000
  const UINT64_MODULUS: int := 0x1_0000_0000_0000_0000

  predicate IsDigit(c: char)
  {
    '0' <= c <= '9'
  }

  predicate AllDigits(s: string)
  {
    forall i :: 0 <= i < |s| ==> IsDigit(s[i])
  }

  function DigitValue(c: char): nat
    requires IsDigit(c)
  {
    (c as int) - ('0' as int)
  }

  function DigitChar(d: nat): (c: char)
    requires d < 10
    ensures IsDigit(c) && DigitValue(c) == d
  {
    (('0' as int) + d) as char
  }

  /** The value of a string of decimal digits, most significant first. */
  function DigitsValue(s: string): nat
    requires AllDigits(s)
  {
    if |s| == 0 then 0
    else 10 * DigitsValue(s[..|s| - 1]) + DigitValue(s[|s| - 1])
  }

  /** The text after an optional leading '+' or '-'. */
  function Unsigned(s: string): string
  {
    if |s| > 0 && (s[0] == '+' || s[0] == '-') then s[1..] else s
  }

  /** Go's `strconv.Atoi`: an optional '+' or '-', then one or more ASCII
      digits, whose value must fit a 64-bit `int`; anything else is an error. */
  function Atoi(s: string): (r: Option<int>)
    ensures |s| == 0 || s == "+" || s == "-" ==> r.None?
    ensures |Unsigned(s)| == 0 || !AllDigits(Unsigned(s)) ==> r.None?
    ensures |Unsigned(s)| > 0 && AllDigits(Unsigned(s)) ==>
              var magnitude := DigitsValue(Unsigned(s));
              var v := if s[0] == '-' then 0 - magnitude else magnitude;
              (r.Some? <==> MIN_INT64 <= v <= MAX_INT64) && (r.Some? ==> r.value == v)
    ensures r.Some? ==> MIN_INT64 <= r.value <= MAX_INT64
    ensures r.Some? ==> forall i :: 1 <= i < |s| ==> IsDigit(s[i])
    ensures r.Some? && IsDigit(s[0]) ==> 0 <= r.value
    ensures r.Some? && s[0] == '-' ==> r.value <= 0
  {
    var body := Unsigned(s);
    if |body| == 0 || !AllDigits(body) then None
    else
      var magnitude: int := DigitsValue(body);
      var v := if s[0] == '-' then -magnitude else magnitude;
      if MIN_INT64 <= v <= MAX_INT64 then Some(v) else None
  }

  /** Go's `uint(v)` on a 64-bit platform: the value modulo 2^64. */
  function Uint(v: int): (r: nat)
    ensures r < UINT64_MODULUS
    ensures 0 <= v < UINT64_MODULUS ==> r == v
    ensures -UINT64_MODULUS <= v < 0 ==> r == v + UINT64_MODULUS
  {
    v % UINT64_MODULUS
  }

  /** Go's `%d` rendering of an unsigned value: shortest decimal form. */
  function FormatUint(n: nat): (r: string)
    ensures |r| >= 1 && AllDigits(r)
    ensures r[0] == '0' ==> n == 0
  {
    if n < 10 then [DigitChar(n)]
    else FormatUint(n / 10) + [DigitChar(n % 10)]
  }

  /** A rendered number holds no character other than a digit. */
  lemma FormatUintAvoids(n: nat, c: char)
    requires !IsDigit(c)
    ensures c !in FormatUint(n)
  {
    var s := FormatUint(n);
    assert forall i :: 0 <= i < |s| ==> s[i] != c;
  }

  /** A rendered number holds neither of the protocol's separators. */
  lemma FormatUintNoSeparators(n: nat)
    ensures ':' !in FormatUint(n) && '.' !in FormatUint(n)
  {
    FormatUintAvoids(n, ':');
    FormatUintAvoids(n, '.');
  }

  lemma {:induction false} DigitsValueFormatUint(n: nat)
    ensures DigitsValue(FormatUint(n)) == n
  {
    var s := FormatUint(n);
    if n >= 10 {
      DigitsValueFormatUint(n / 10);
      assert s[..|s| - 1] == FormatUint(n / 10);
    }
  }

  /** Parsing the rendering of any value in `int` range gives that value back. */
  lemma AtoiFormatUint(n: nat)
    requires n <= MAX_INT64
    ensures Atoi(FormatUint(n)) == Some(n)
  {
    DigitsValueFormatUint(n);
  }

  /** A leading '-' negates, down to the least 64-bit `int`; `uint` of the
      result wraps to 2^64 - n. */
  lemma AtoiNegative(n: nat)
    requires 0 < n <= -MIN_INT64
    ensures Atoi("-" + FormatUint(n)) == Some(0 - n as int)
    ensures Uint(Atoi("-" + FormatUint(n)).value) == UINT64_MODULUS - n
  {
    var s := "-" + FormatUint(n);
    assert s[1..] == FormatUint(n);
    DigitsValueFormatUint(n);
  }

  /** A character that is neither a digit nor a leading sign makes Atoi fail. */
  lemma AtoiRejectsNonDigit(s: string, i: nat)
    requires i < |s| && !IsDigit(s[i])
    requires i > 0 || (s[0] != '+' && s[0] != '-')
    ensures Atoi(s) == None
  {
  }

  /** One past the greatest `int` is out of range, so Atoi reports an error. */
  lemma AtoiOverflow()
    ensures Atoi(FormatUint(MAX_INT64 + 1)) == None
    ensures Atoi("-" + FormatUint(-MIN_INT64 + 1)) == None
  {
    DigitsValueFormatUint(MAX_INT64 + 1);
    var neg := "-" + FormatUint(-MIN_INT64 + 1);
    assert Unsigned(neg) == FormatUint(-MIN_INT64 + 1);
    DigitsValueFormatUint(-MIN_INT64 + 1);
  }
}

=== FILE: strings.dfy ===
/**
 * Go's `strings.Split` and `strings.Join` with a one-character separator.
 * Every wire message is a line whose fields are separated by ':', and the
 * CONNECT version field is split again on '.'.
 */
module Strings {

  /** The pieces of `s` between occurrences of `sep`, in order. Like Go's
      `strings.Split`, the result is never empty: "" splits into [""]. */
  function Split(s: string, sep: char): (r: seq<string>)
    ensures |r| >= 1
    ensures forall i :: 0 <= i < |r| ==> sep !in r[i]
    decreases |s|
  {
    if |s| == 0 then [""]
    else
      var rest := Split(s[1..], sep);
      if s[0] == sep then [""] + rest
      else [[s[0]] + rest[0]] + rest[1..]
  }

  /** The pieces glued together with `sep` between neighbours (Go's `strings.Join`). */
  function Join(parts: seq<string>, sep: char): string
  {
    if |parts| == 0 then ""
    else if |parts| == 1 then parts[0]
    else parts[0] + [sep] + Join(parts[1..], sep)
  }

  /** No piece contains the separator. */
  predicate Separable(parts: seq<string>, sep: char)
  {
    forall i :: 0 <= i < |parts| ==> sep !in parts[i]
  }

  /** Splitting a separator-free prefix followed by `t` extends the first piece of `t`. */
  lemma {:induction false} SplitFreePrefix(a: string, t: string, sep: char)
    requires sep !in a
    ensures Split(a + t, sep) == [a + Split(t, sep)[0]] + Split(t, sep)[1..]
    decreases |a|
  {
    if |a| == 0 {
      assert a + t == t;
      assert a + Split(t, sep)[0] == Split(t, sep)[0];
      assert Split(t, sep) == [Split(t, sep)[0]] + Split(t, sep)[1..];
    } else {
      SplitFreePrefix(a[1..], t, sep);
      assert (a + t)[1..] == a[1..] + t;
      assert [a[0]] + (a[1..] + Split(t, sep)[0]) == a + Split(t, sep)[0];
    }
  }

  /** Join then Split gives back the pieces, provided none of them holds the separator. */
  lemma {:induction false} SplitJoin(parts: seq<string>, sep: char)
    requires |parts| >= 1
    requires Separable(parts, sep)
    ensures Split(Join(parts, sep), sep) == parts
    decreases |parts|
  {
    if |parts| == 1 {
      SplitFreePrefix(parts[0], "", sep);
      assert parts[0] + "" == parts[0];
    } else {
      var tail := Join(parts[1..], sep);
      SplitJoin(parts[1..], sep);
      assert ([sep] + tail)[1..] == tail;
      assert Split([sep] + tail, sep) == [""] + parts[1..];
      assert parts[0] + [sep] + tail == parts[0] + ([sep] + tail);
      SplitFreePrefix(parts[0], [sep] + tail, sep);
      assert parts[0] + "" == parts[0];
      assert [parts[0]] + parts[1..] == parts;
    }
  }

  /** Two separator-free lists of pieces are separator-free together. */
  lemma SeparableConcat(xs: seq<string>, ys: seq<string>, sep: char)
    requires Separable(xs, sep) && Separable(ys, sep)
    ensures Separable(xs + ys, sep)
  {
    forall i | 0 <= i < |xs + ys|
      ensures sep !in (xs + ys)[i]
    {
      if i < |xs| {
        assert (xs + ys)[i] == xs[i];
      } else {
        assert (xs + ys)[i] == ys[i - |xs|];
      }
    }
  }

  /** The first piece of a joined text is the first part, when that part is
      free of the separator: the tag of a line survives whatever follows it. */
  lemma SplitJoinHead(parts: seq<string>, sep: char)
    requires |parts| >= 1 && sep !in parts[0]
    ensures Split(Join(parts, sep), sep)[0] == parts[0]
  {
    var t := if |parts| == 1 then "" else [sep] + Join(parts[1..], sep);
    assert Join(parts, sep) == parts[0] + t;
    SplitFreePrefix(parts[0], t, sep);
    if |parts| > 1 {
      assert t[1..] == Join(parts[1..], sep);
    }
    assert Split(t, sep)[0] == "";
  }

  /** Joining a group that was itself joined, in last place, is joining the
      group's parts in place. */
  lemma {:induction false} JoinFlatten(xs: seq<string>, ys: seq<string>, sep: char)
    requires |xs| >= 1 && |ys| >= 1
    ensures Join(xs + [Join(ys, sep)], sep) == Join(xs + ys, sep)
    decreases |xs|
  {
    assert (xs + [Join(ys, sep)])[1..] == xs[1..] + [Join(ys, sep)];
    assert (xs + ys)[1..] == xs[1..] + ys;
    if |xs| > 1 {
      JoinFlatten(xs[1..], ys, sep);
    } else {
      assert xs[1..] + ys == ys;
      assert xs[1..] + [Join(ys, sep)] == [Join(ys, sep)];
    }
  }

  /** Split then Join gives back the original text. */
  lemma {:induction false} JoinSplit(s: string, sep: char)
    ensures Join(Split(s, sep), sep) == s
    decreases |s|
  {
    if |s| > 0 {
      var rest := Split(s[1..], sep);
      JoinSplit(s[1..], sep);
      if s[0] == sep {
        assert ([""] + rest)[1..] == rest;
        assert s == [sep] + s[1..];
      } else {
        var first := [s[0]] + rest[0];
        var parts := [first] + rest[1..];
        if |rest| == 1 {
          assert parts == [first];
          assert s == [s[0]] + s[1..];
        } else {
          assert parts[1..] == rest[1..];
          assert Join(rest, sep) == rest[0] + [sep] + Join(rest[1..], sep);
          assert s == [s[0]] + s[1..];
        }
      }
    }
  }

  /** A character other than the separator occurs in the joined text only if it occurs in a piece. */
  lemma {:induction false} JoinAvoids(parts: seq<string>, sep: char, c: char)
    requires c != sep
    requires Separable(parts, c)
    ensures c !in Join(parts, sep)
    decreases |parts|
  {
    if |parts| > 1 {
      JoinAvoids(parts[1..], sep, c);
      var j := Join(parts[1..], sep);
      assert c !in parts[0];
      assert forall k :: 0 <= k < |parts[0] + [sep] + j| ==>
        (parts[0] + [sep] + j)[k] in parts[0] || (parts[0] + [sep] + j)[k] == sep || (parts[0] + [sep] + j)[k] in j;
    } else if |parts| == 1 {
      assert c !in parts[0];
    }
  }
}

=== FILE: zones.dfy ===
/**
 * A zone registry entry: the players a zone has reported, keyed by the
 * zone-local pid and mapping to the global billerId. Each operation is one
 * atomic step (the Go code holds the entry's lock for its duration).
 */
module Zones {
  import opened Results

  datatype Zone = Zone(name: string, pidToBillerId: map<nat, nat>)

  /** A fresh entry for a zone with no players. */
  function NewZone(name: string): (z: Zone)
    ensures z.name == name
    ensures |z.pidToBillerId| == 0
  {
    Zone(name, map[])
  }

  /** The billerId bound to `pid`, or None (Go: `(0, false)`). */
  function ToBillerId(z: Zone, pid: nat): (r: Option<nat>)
    ensures r.Some? <==> pid in z.pidToBillerId
    ensures r.Some? ==> z.pidToBillerId[pid] == r.value
  {
    if pid in z.pidToBillerId then Some(z.pidToBillerId[pid]) else None
  }

  /** Binds `pid` to `billerId` unless `pid` is already bound; never overwrites. */
  function AddPlayer(z: Zone, pid: nat, billerId: nat): (r: (Zone, bool))
    ensures r.1 <==> pid !in z.pidToBillerId
    ensures !r.1 ==> r.0 == z
    ensures r.0.name == z.name
    ensures ToBillerId(r.0, pid) == (if r.1 then Some(billerId) else ToBillerId(z, pid))
    ensures forall p :: p != pid ==> ToBillerId(r.0, p) == ToBillerId(z, p)
  {
    if pid in z.pidToBillerId then (z, false)
    else (z.(pidToBillerId := z.pidToBillerId[pid := billerId]), true)
  }

  /** Unbinds `pid`, whether or not it was bound. */
  function RemovePlayer(z: Zone, pid: nat): (r: Zone)
    ensures r.name == z.name
    ensures ToBillerId(r, pid) == None
    ensures forall p :: p != pid ==> ToBillerId(r, p) == ToBillerId(z, p)
    ensures pid !in z.pidToBillerId ==> r == z
  {
    z.(pidToBillerId := z.pidToBillerId - {pid})
  }

  /** Removing twice is removing once. */
  lemma RemovePlayerIdempotent(z: Zone, pid: nat)
    ensures RemovePlayer(RemovePlayer(z, pid), pid) == RemovePlayer(z, pid)
  {
  }

  /** Adding a fresh pid and removing it again restores the entry. */
  lemma AddThenRemove(z: Zone, pid: nat, billerId: nat)
    requires pid !in z.pidToBillerId
    ensures RemovePlayer(AddPlayer(z, pid, billerId).0, pid) == z
  {
    assert RemovePlayer(AddPlayer(z, pid, billerId).0, pid).pidToBillerId == z.pidToBillerId;
  }

  /** Operations on different pids commute. */
  lemma AddRemoveCommute(z: Zone, p: nat, q: nat, billerId: nat)
    requires p != q
    ensures AddPlayer(RemovePlayer(z, q), p, billerId).0 == RemovePlayer(AddPlayer(z, p, billerId).0, q)
  {
    if p !in z.pidToBillerId {
      assert AddPlayer(RemovePlayer(z, q), p, billerId).0.pidToBillerId
          == RemovePlayer(AddPlayer(z, p, billerId).0, q).pidToBillerId;
    }
  }
}
